=== FILE: README.md ===
# Encrypted inter-solution transport and multi-database connection factory, in Dafny

This project models two libraries from one repository.

**SecureInterSolution.Middleware** lets two services ("solutions") exchange
HTTP bodies under an authenticated cipher with a pre-shared key named by a
key id. The model covers these parts:

- the wire codec that packs nonce, ciphertext and tag into one buffer (`Payload`);
- the cipher interface, as an abstract AEAD with the guarantees the AES-GCM
  wrapper gives (`Aead`);
- the configuration and its defaults (`SecureOptions`);
- the server middleware, as one function of the options, the request and
  what the downstream application did (`Gateway`). It covers the flag test,
  the two 400 rejections, request decryption, response buffering, the 504
  timeout path and re-encryption of the mirrored response;
- the client message handler (`Handler`): the outbound rewrite, the inbound
  unwrap and `SendAsync` around the transport;
- the two roles connected (`Exchange`). The request leg round-trips for
  every pair of peers, over a wire that carries header values unchanged
  (see Left out). The response leg does not as written (see Findings).

**MultiDb.Extensions** resolves a database name to an ADO.NET connection.
The model covers these parts:

- the configuration records and their defaults (`MultiDbConfig`);
- the connection factory (`ConnectionFactory`). It covers the
  case-insensitive index built once, the ordered validation chain of
  `CreateConnection`, and the provider alias table with its candidate walk.
  The provider registry is an input: a partial map from invariant name to
  what that provider's factory does.

Shared helpers: `Wrappers` (`Option`, `Result`), `Text` (bytes, .NET white
space, `Trim`, ordinal case folding) and `Headers` (multi-valued header
maps with the reads and writes each HTTP stack uses).

Nonces, which the cipher draws at random, are inputs. The downstream
application's behaviour and the transport's outcome are inputs. Timeouts are
modelled by their outcome: the inputs say whether the timeout source had
fired when cancellation arrived.

Three facts about the code shape the model:

- The server treats a request as encrypted only when the flag header,
  read as one string, is exactly "1". The header merely being present is
  not enough. The client, by contrast, unwraps any response that carries
  the flag header, whatever its value.
- The re-encrypted response carries three protocol headers: the flag, the
  key id and the original content type. It does not carry the sender and
  target headers.
- The client cannot open the server's mirrored response, because the two
  roles put the solution ids into the associated data in opposite orders
  (see Findings). For every cipher that tells the two orders apart on the
  payload in question (the `Aead.Separates` hypothesis), the client rejects
  the response (`Exchange.UnswappedResponseRejected`). `Exchange.HelloFromAToB`
  shows this concretely for the transparent stand-in cipher.

## Model

| member | source | states |
|---|---|---|
| Payload.Pack | src/SecureInterSolution.Middleware/src/Crypto/IAeadEncryptor.cs:18-25 | The packed buffer is exactly as long as the three parts, with the nonce first, the ciphertext next and the tag last. |
| Payload.Unpack | src/SecureInterSolution.Middleware/src/Crypto/IAeadEncryptor.cs:27-38 | A buffer shorter than nonce plus tag length is rejected as too short. Splitting succeeds exactly when both lengths are non-negative and the buffer is long enough. The parts then have the requested lengths and re-pack to the same buffer. |
| Payload.RoundTrip | src/SecureInterSolution.Middleware/src/Crypto/IAeadEncryptor.cs:18-38 | Unpacking a packed payload with its own nonce and tag lengths returns the same payload. |
| Payload.ExactLengthIsEmptyCipher | src/SecureInterSolution.Middleware/src/Crypto/IAeadEncryptor.cs:29-36 | A buffer of exactly nonce plus tag length splits into an empty ciphertext. |
| Aead.TransparentIsSound | src/SecureInterSolution.Middleware/src/Crypto/AesGcmEncryptor.cs:15-32 | The cipher guarantees assumed of every AEAD can be met together. Those guarantees are: ciphertext as long as the plaintext, a tag of the requested length, the drawn nonce carried along, and open undoing seal under the same associated data and key. |
| SecureOptions.DefaultsAreTheProtocolConstants | src/SecureInterSolution.Middleware/src/Options/SecureCommunicationOptions.cs:14-70 | Defaults: no keys, key id "default", solution "unknown", five distinct X- header names, mirroring on, 12-byte nonce, 16-byte tag, 30 s timeout. |
| Text.Trim | src/MultiDb.Extensions/src/Services/MultiDbConnectionFactory.cs:41 | The trimmed provider is the part of the original with only white space before and after it. It neither starts nor ends with white space, and it is empty exactly when the original is blank. |
| Text.TrimIsUnique | src/MultiDb.Extensions/src/Services/MultiDbConnectionFactory.cs:41 | Any part of the string with only white space around it and none at its ends is the trimmed string, so trimming is fully determined. |
| Headers.JoinedSingle | src/SecureInterSolution.Middleware/src/Middleware/EncryptedCommunicationMiddleware.cs:33 | A header read as one string joins its non-empty values with commas, skipping empty ones. It equals a comma-free string exactly when that string is the only non-empty value, or when the string is empty and there are no non-empty values. |
| Headers.Lookup | src/SecureInterSolution.Middleware/src/Middleware/EncryptedCommunicationMiddleware.cs:107-108 | The server's read finds a value exactly when the header is present, and a single-valued header reads as its value. |
| Headers.Set | src/SecureInterSolution.Middleware/src/Middleware/EncryptedCommunicationMiddleware.cs:147-149 | Assigning a header leaves exactly the new value under that name and no other header changed. |
| Headers.Remove | src/SecureInterSolution.Middleware/src/Http/EncryptedHttpMessageHandler.cs:45-49 | Removing a header drops that name only. |
| Headers.Add | src/SecureInterSolution.Middleware/src/Http/EncryptedHttpMessageHandler.cs:51-55 | Adding appends the value after any existing values and leaves other headers unchanged. |
| Headers.First | src/SecureInterSolution.Middleware/src/Http/EncryptedHttpMessageHandler.cs:73 | The client's first-value read is absent exactly when the header is, and is a value exactly when the header holds at least one, namely its first. |
| Gateway.IsEncryptedIffSingleOne | src/SecureInterSolution.Middleware/src/Middleware/EncryptedCommunicationMiddleware.cs:33 | The server treats a request as encrypted exactly when the only non-empty value of the flag header is "1". |
| Gateway.EmptyFlagValueIsSkipped | src/SecureInterSolution.Middleware/src/Middleware/EncryptedCommunicationMiddleware.cs:33 | A flag header holding an empty value followed by "1" still marks the request as encrypted. |
| Gateway.DecryptIncomingRequest | src/SecureInterSolution.Middleware/src/Middleware/EncryptedCommunicationMiddleware.cs:83-118 | A missing key id and an unknown key id are told apart, both before the body is read. With a known key the outcome depends only on the split and the cipher. A failed split is reported as malformed, a failed open is reported with the cipher's error, and a successful open is accepted. On success the body is what the cipher opens under key id, from and to joined by vertical bars, with the configured key and lengths. The content length is set and the content type is restored (default octet-stream). The header map is untouched. |
| Gateway.EncryptOutgoingResponse | src/SecureInterSolution.Middleware/src/Middleware/EncryptedCommunicationMiddleware.cs:120-154 | With a missing or unknown key id the buffered bytes go out unchanged. Otherwise the response is sealed under the response binding, or the cipher's error is reported. It is written packed under octet-stream with its own length. The status is kept, flag "1", key id and original content type are set, and every other header is kept. |
| Gateway.Invoke | src/SecureInterSolution.Middleware/src/Middleware/EncryptedCommunicationMiddleware.cs:26-81 | Unflagged requests reach downstream unchanged. The two 400s carry their messages and never reach downstream. Downstream runs exactly when the request was unflagged or decrypted, and then sees the decryption. A timeout before the response started writes a 504 into the response, whose message is lost when the response was buffered. Caller cancellation and downstream failures escape, leaving the response as the middleware found it. A cipher that refuses to seal escapes too, leaving the response unsealed with downstream's status, headers and content type and nothing written. A payload that fails to split or to open escapes as the codec's or the cipher's error, with nothing written and downstream not run. A completed response passes through, or is re-encrypted when mirrored, reading the request headers as downstream left them. |
| Gateway.MirroredResponseIsAlwaysSealed | src/SecureInterSolution.Middleware/src/Middleware/EncryptedCommunicationMiddleware.cs:125-151 | When downstream leaves the key-id request header alone, the pass-through branches of re-encryption are not taken. A completed mirrored response that goes out is then flagged, carries the request's key id and is octet-stream. |
| Gateway.KeyIdRemovedDownstreamSendsPlaintext | src/SecureInterSolution.Middleware/src/Middleware/EncryptedCommunicationMiddleware.cs:120-136 | Re-encryption re-reads the request headers after downstream ran. A downstream that removes the key-id request header makes the buffered response go out unflagged and in plain text, with its own status, headers and content type. |
| Gateway.RoutingHeadersSurvive | src/SecureInterSolution.Middleware/src/Middleware/EncryptedCommunicationMiddleware.cs:125-140 | When downstream leaves the key-id, from and to request headers alone, re-encryption finds the key id and builds the associated data exactly as it would from the request downstream received. |
| Headers.Edit | src/SecureInterSolution.Middleware/src/Middleware/EncryptedCommunicationMiddleware.cs:51 | After a set of removals and replacements, a named header is present exactly when it was replaced and then holds the new values. Every other header keeps its presence and values. |
| Handler.New | src/SecureInterSolution.Middleware/src/Http/EncryptedHttpMessageHandler.cs:19-25 | The handler keeps its target and uses the explicit key id, else the configured default. |
| Handler.ProtocolHeaders | src/SecureInterSolution.Middleware/src/Http/EncryptedHttpMessageHandler.cs:45-55 | The rewritten headers are the old ones plus the five protocol names, other headers unchanged. With distinct names each protocol header holds exactly its new value, whatever it held before. |
| Handler.Rewrite | src/SecureInterSolution.Middleware/src/Http/EncryptedHttpMessageHandler.cs:31-59 | An unknown key id fails first. Otherwise the whole content (or nothing) is sealed under key id, this solution and target joined by vertical bars. The request leaves with the packed payload as octet-stream content of its own length and the protocol headers rewritten, or with the cipher's error. |
| Handler.Unwrap | src/SecureInterSolution.Middleware/src/Http/EncryptedHttpMessageHandler.cs:66-93 | An unflagged response comes back unchanged. A flagged one needs a key id header with at least one value, and the first value must be a known key. Each later failure is tied to its step: a failed split, a failed open, an original-content-type header with no values, and a restored content type that is not a bare media type. When all steps succeed, the content is what the cipher opens under key id, target and this solution joined by vertical bars, with its own length and the restored content type. The flag and content-type headers are removed and the status is kept. |
| Handler.PlainMediaTypesAccepted | src/SecureInterSolution.Middleware/src/Http/EncryptedHttpMessageHandler.cs:89 | The media-type constructor accepts "text/plain" and the octet-stream fallback. |
| Handler.NonTokenCharRefused | src/SecureInterSolution.Middleware/src/Http/EncryptedHttpMessageHandler.cs:89 | A string containing a character that is neither an HTTP token character nor the slash is refused by the media-type constructor. |
| Handler.ParameterisedMediaTypeRefused | src/SecureInterSolution.Middleware/src/Http/EncryptedHttpMessageHandler.cs:89 | "application/json; charset=utf-8" and the empty string are refused by the media-type constructor. |
| Handler.Send | src/SecureInterSolution.Middleware/src/Http/EncryptedHttpMessageHandler.cs:27-100 | Rewrite errors escape before sending. A cancellation is a timeout error carrying the configured duration only when the handler's own timeout fired. A delivered response is unwrapped. |
| Handler.FlagValueIsIgnored | src/SecureInterSolution.Middleware/src/Http/EncryptedHttpMessageHandler.cs:66 | The client's unwrap depends on the flag header's presence only, never on its values. |
| Exchange.RewrittenHeadersRead | src/SecureInterSolution.Middleware/src/Middleware/EncryptedCommunicationMiddleware.cs:91-109 | For peers with matching header names, the server reads back exactly the key id, sender and target the client wrote. |
| Exchange.RequestLegAgrees | src/SecureInterSolution.Middleware/src/Middleware/EncryptedCommunicationMiddleware.cs:83-118 | For peers sharing key, header names and lengths, the server decrypts what the client sealed to the original body, with the original content type. |
| Exchange.ResponseAadAgreement | src/SecureInterSolution.Middleware/src/Middleware/EncryptedCommunicationMiddleware.cs:139-141 | The corrected response binding always equals what the client opens under. The as-written one does exactly when this solution and target joined by a vertical bar read the same in both orders. |
| Exchange.SeparatorFreeAgreement | src/SecureInterSolution.Middleware/src/Http/EncryptedHttpMessageHandler.cs:82 | For solution ids without a vertical bar, the two orders agree exactly when the ids are equal. |
| Exchange.SeparatorCollision | src/SecureInterSolution.Middleware/src/Middleware/EncryptedCommunicationMiddleware.cs:109 | The separator is not escaped: distinct ids "x" and "x" + bar + "x" give the same associated data in both orders. |
| Exchange.ServerMirrors | src/SecureInterSolution.Middleware/src/Middleware/EncryptedCommunicationMiddleware.cs:43-81 | On a rewritten request with a completing application that leaves the key-id, from and to request headers alone, the server forwards the decryption. It sends the application's body sealed under the chosen binding, with the flag, the key id and the content type. |
| Exchange.ResponseLegDelivers | src/SecureInterSolution.Middleware/src/Http/EncryptedHttpMessageHandler.cs:79-92 | A response sealed under the client's expected binding unwraps to the application's body, status and content type when that content type is a bare media type. Otherwise it fails with an invalid media type. |
| Exchange.ResponseLegRejects | src/SecureInterSolution.Middleware/src/Http/EncryptedHttpMessageHandler.cs:82-84 | A response the cipher will not open under the client's binding fails authentication at the client. |
| Exchange.MirroredExchange | src/SecureInterSolution.Middleware/src/Middleware/EncryptedCommunicationMiddleware.cs:139-141 | With the corrected binding and a downstream that leaves the routing request headers alone, a full round trip between peers delivers the request body to downstream intact. Downstream's response reaches the caller intact when its content type is a bare media type. A content type with parameters makes the client fail after decrypting. |
| Exchange.UnswappedResponseRejected | src/SecureInterSolution.Middleware/src/Middleware/EncryptedCommunicationMiddleware.cs:139-141 | As written, when the cipher tells the two orders apart and downstream leaves the routing request headers alone, the server completes the request but the client rejects its response as not authentic. |
| Exchange.TransparentSeparatesResponseBindings | src/SecureInterSolution.Middleware/src/Http/EncryptedHttpMessageHandler.cs:82 | A cipher meeting every assumed guarantee tells the response bindings for "A" to "B" and "B" to "A" under "k1" apart, so the as-written failure is attainable. |
| Exchange.FlagCheckedDifferently | src/SecureInterSolution.Middleware/src/Http/EncryptedHttpMessageHandler.cs:66 | The server passes a flag value "0" through untouched, while the client treats the same flagged response as encrypted and fails on the missing key id. |
| Exchange.HelloFromAToB | src/SecureInterSolution.Middleware/src/Middleware/EncryptedCommunicationMiddleware.cs:139-141 | "A" sends "hello" to "B" under "k1" with default options. B's application receives "hello" and answers "hi". As written A rejects the answer; with the corrected binding A reads "hi". |
| MultiDbConfig.DefaultsAreEmpty | src/MultiDb.Extensions/src/Options/MultiDbOptions.cs:5-23 | Section "MultiDb". Defaults: no databases; empty name, provider and connection string; warm-up on. |
| ConnectionFactory.BuildIndex | src/MultiDb.Extensions/src/Services/MultiDbConnectionFactory.cs:22-26 | Building fails exactly when two names are equal ignoring case, and then names the first repeating entry. Otherwise every configuration is found under its case-folded name and no other key exists. |
| ConnectionFactory.NewFactory | src/MultiDb.Extensions/src/Services/MultiDbConnectionFactory.cs:17-27 | The factory is constructed exactly when the configured names are distinct ignoring case. |
| ConnectionFactory.LookupIgnoresCase | src/MultiDb.Extensions/src/Services/MultiDbConnectionFactory.cs:36-39 | A name finds a configuration exactly when some configured name equals it ignoring case, and then it finds that one. |
| ConnectionFactory.CreateProviderConnection | src/MultiDb.Extensions/src/Services/MultiDbConnectionFactory.cs:57-107 | A connection comes back exactly when some candidate is the first one whose lookup does not fail, and that candidate's factory creates a connection accepting the string. It is that candidate's connection, carrying the configured connection string. A throwing factory or setter ends the walk with nothing. |
| ConnectionFactory.NoneYields | src/MultiDb.Extensions/src/Services/MultiDbConnectionFactory.cs:89-94 | Once a candidate throws, no later candidate can be the one that yields. |
| ConnectionFactory.FirstYieldingUnique | src/MultiDb.Extensions/src/Services/MultiDbConnectionFactory.cs:73-87 | The walk's answer is determined: at most one candidate is the first to yield. |
| ConnectionFactory.CreateConnection | src/MultiDb.Extensions/src/Services/MultiDbConnectionFactory.cs:29-55 | The checks run in order: blank name, unknown name (ignoring case), blank provider after trimming, blank connection string. After them, provider resolution succeeds exactly when some candidate of the trimmed provider yields, and failure is "not supported" for that provider. On success the connection is the first yielding candidate's, of that factory's connection type, carrying the configured string. |
| ConnectionFactory.SqlServerFallsBack | src/MultiDb.Extensions/src/Services/MultiDbConnectionFactory.cs:67-87 | "SqlServer" tries Microsoft.Data.SqlClient first and falls back to System.Data.SqlClient only when the first is missing or yields no connection. A throwing first factory yields nothing. |
| ConnectionFactory.AliasesAreCaseSensitive | src/MultiDb.Extensions/src/Services/MultiDbConnectionFactory.cs:64-71 | Aliases match exactly: "Sqlite" and "SQLite" map to Microsoft.Data.Sqlite, "sqlite" is tried as itself, and "SqlServer" gives both SqlClient names, newer first. |

## Left out

- AES-GCM itself and the random nonce draw: the cipher is any pair of functions meeting `Aead.Sound`. Nonces are inputs, and their freshness is not modelled.
- The binding of the tag to the associated data is not a general guarantee of the abstract cipher. No cipher with fixed-length tags can reject every other associated-data string (pigeonhole). It appears instead as a hypothesis about one payload (`Aead.Rejects`, `Aead.Separates`), witnessed by the transparent cipher.
- UTF-8 encoding of the associated data: both roles encode the same string the same way, so the model compares the strings.
- Content type and content length are kept as fields of the request and response, outside the header map. In ASP.NET they are the Content-Type and Content-Length headers, so where the model says the header map is untouched or kept, those two headers still change with the fields.
- Exchange.RequestLegAgrees: like every Exchange lemma, it assumes header values cross the wire unchanged (`Exchange.ToServer`, `Exchange.ToClient`). Real HTTP servers strip white space at either end of a header value (section 3.2.4 of RFC 7230), and HttpClient refuses non-ASCII request header values by default. So a solution id or key id with white space at either end, or with non-ASCII characters, does not round-trip. With "k1 ", for example, the server would read "k1" and answer "Unknown key id".
- Header-name case-insensitivity of both HTTP stacks: names are compared exactly. Header-value validation of `HttpHeaders.Add` is also left out.
- Text.FoldCase: folds ASCII letters only, where `OrdinalIgnoreCase` also folds the other letters .NET's invariant upper-casing covers.
- Null strings and null option collections are treated as empty ones.
- Gateway.Invoke: starts from a fresh response. Whatever a failed or cancelled downstream had already written is not modelled, and a started response that was cancelled is shown with an empty body.
- Streams, `CancellationToken` registration, `context.Abort` and the actual elapsed time: only the outcome (completed, cancelled with or without the timeout fired, failed) is modelled.
- Exchange.MirroredExchange: like Exchange.ServerMirrors and Exchange.UnswappedResponseRejected, it assumes downstream does not change the key-id, from or to request headers. A downstream that does changes what the response is sealed under (Gateway.KeyIdRemovedDownstreamSendsPlaintext shows the extreme case).
- Gateway.TimedOut: the 504 and its message are what the middleware writes into its response object. When the timeout fires, the registered `context.Abort` may already have closed the connection, so the client may never receive them.
- Dependency-injection registration, the attribute-based service scanner, the pipeline extension methods, the warm-up hosted service and the factory interface are not part of this model. They do configuration wiring or I/O.
- `DbProviderFactories` and ADO.NET connection objects: a registry map stands in for them. A missing entry is a lookup that throws. Only the connection's type name and connection string are kept.
- Logging of the swallowed provider exception.

## Findings

| source | as written | input that shows it | evidently intended | confidence | as-written member | corrected member |
|---|---|---|---|---|---|---|
| src/SecureInterSolution.Middleware/src/Middleware/EncryptedCommunicationMiddleware.cs:139-141 | The server seals the mirrored response under key id, from and to, in the same order as the request. The client opens it under key id, target and this solution (EncryptedHttpMessageHandler.cs:82), which is the reverse order. | Client "A" sends to "B" under key id "k1". The server seals under k1, A, B and the client opens under k1, B, A, so authentication fails. | The server names the responder first: key id, to, from. The mirrored response then opens at the client. | not executed | Exchange.UnswappedResponseRejected | Exchange.MirroredExchange |

=== FILE: aead.dfy ===
/** The authenticated cipher as the protocol sees it (`IAeadEncryptor`).
    The concrete AES-GCM wrapper is not modelled; an `Aead` value is any
    pair of functions, and `Sound` collects the guarantees the wrapper
    gives: the ciphertext is as long as the plaintext, the tag is as long as
    requested, the payload carries the nonce drawn for it, opening yields as
    many bytes as the ciphertext holds, and opening a sealed payload under
    the same associated data and key gives the plaintext back.

    The associated data is kept as the string the roles build; both roles
    encode it to bytes the same way. The nonce is an input: it stands for the
    random draw the wrapper makes on every call. */
module Aead {
  import opened Wrappers
  import opened Text
  import opened Payload

  datatype CryptoError =
    /** Key, nonce or tag size the cipher does not support. */
    | InvalidParameters
    /** Tag verification failed; no plaintext is released. */
    | AuthenticationFailed

  datatype Aead = Aead(
    /** (plaintext, associated data, key, nonce, tag length) */
    seal: (Bytes, string, Bytes, Bytes, int) -> Result<EncryptedPayload, CryptoError>,
    /** (payload, associated data, key) */
    open: (EncryptedPayload, string, Bytes) -> Result<Bytes, CryptoError>)

  ghost predicate SealedWell(e: Aead, plaintext: Bytes, aad: string, key: Bytes, nonce: Bytes, tagLength: int, p: EncryptedPayload)
  {
    && p.nonce == nonce
    && |p.cipher| == |plaintext|
    && |p.tag| == tagLength
    && e.open(p, aad, key) == Success(plaintext)
  }

  ghost predicate Sound(e: Aead)
  {
    && (forall plaintext, aad, key, nonce, tagLength ::
          e.seal(plaintext, aad, key, nonce, tagLength).Success? ==>
            SealedWell(e, plaintext, aad, key, nonce, tagLength, e.seal(plaintext, aad, key, nonce, tagLength).value))
    && (forall p, aad, key ::
          e.open(p, aad, key).Success? ==> |e.open(p, aad, key).value| == |p.cipher|)
  }

  /** The cipher accepts this key with nonces of `nonceLength` bytes and
      tags of `tagLength` bytes, whatever the plaintext and associated data. */
  ghost predicate Accepts(e: Aead, key: Bytes, nonceLength: int, tagLength: int)
  {
    forall plaintext, aad, nonce ::
      |nonce| == nonceLength ==> e.seal(plaintext, aad, key, nonce, tagLength).Success?
  }

  /** Associated-data binding for one payload: opening it under `aad` fails.
      No cipher with fixed-length tags can have this for every pair of
      distinct strings, so it is stated per payload. */
  ghost predicate Rejects(e: Aead, p: EncryptedPayload, aad: string, key: Bytes)
  {
    e.open(p, aad, key).Failure?
  }

  /** A payload sealed under `sealedUnder` does not open under `openedUnder`
      (when the cipher seals at all). */
  ghost predicate Separates(e: Aead, key: Bytes, plaintext: Bytes, nonce: Bytes, tagLength: int,
                            sealedUnder: string, openedUnder: string)
  {
    e.seal(plaintext, sealedUnder, key, nonce, tagLength).Success? ==>
      Rejects(e, e.seal(plaintext, sealedUnder, key, nonce, tagLength).value, openedUnder, key)
  }

  /** A tag made of the first `tagLength` characters of the associated data
      (as bytes, zero-padded). */
  function AadPrefixTag(aad: string, tagLength: nat): (t: Bytes)
    ensures |t| == tagLength
  {
    seq(tagLength, i requires 0 <= i < tagLength => if i < |aad| then (aad[i] as int % 256) as bv8 else 0)
  }

  /** A transparent stand-in cipher: the ciphertext is the plaintext and the
      tag depends on the associated data alone. It exists to show that
      `Sound` can be met and to exhibit a concrete rejection; it hides
      nothing. */
  function Transparent(): Aead
  {
    Aead(
      (plaintext: Bytes, aad: string, key: Bytes, nonce: Bytes, tagLength: int) =>
        if tagLength < 0 then Failure(InvalidParameters)
        else Success(EncryptedPayload(nonce, plaintext, AadPrefixTag(aad, tagLength))),
      (p: EncryptedPayload, aad: string, key: Bytes) =>
        if p.tag == AadPrefixTag(aad, |p.tag|) then Success(p.cipher) else Failure(AuthenticationFailed))
  }

  /** The guarantees collected in `Sound` are consistent: the transparent
      cipher has all of them, and accepts every key. */
  lemma TransparentIsSound()
    ensures Sound(Transparent())
    ensures forall key, n, t :: t >= 0 ==> Accepts(Transparent(), key, n, t)
  {
    var e := Transparent();
    forall plaintext, aad, key, nonce, tagLength | e.seal(plaintext, aad, key, nonce, tagLength).Success?
      ensures SealedWell(e, plaintext, aad, key, nonce, tagLength, e.seal(plaintext, aad, key, nonce, tagLength).value)
    {
      var p := e.seal(plaintext, aad, key, nonce, tagLength).value;
      assert p.tag == AadPrefixTag(aad, tagLength);
    }
  }
}

=== FILE: connection_factory.dfy ===
/** `MultiDbConnectionFactory`: a case-insensitive index of the configured
    databases, built once, and `CreateConnection`, an ordered chain of
    checks followed by a provider lookup. The ADO.NET provider registry
    (`DbProviderFactories`) is an input: a partial map from invariant name to
    what that provider's factory does. */
module ConnectionFactory {
  import opened Wrappers
  import opened Text
  import opened MultiDbConfig

  /** What a registered provider factory does when asked for a connection. */
  datatype ProviderFactory =
    /** `CreateConnection()` returns null. */
    | ReturnsNull
    /** `CreateConnection()` throws. */
    | Throws
    /** It returns a connection of this type, whose `ConnectionString`
        setter throws for the strings in `rejects`. */
    | Creates(connectionType: string, rejects: set<string>)

  /** Invariant names absent from the map make `GetFactory` throw. */
  type Registry = map<string, ProviderFactory>

  datatype Connection = Connection(invariantName: string, connectionType: string, connectionString: string)

  datatype FactoryError =
    /** `ToDictionary` met a second name equal to an earlier one ignoring case. */
    | DuplicateName(name: string)
    | NameRequired
    | NoConfiguration(databaseName: string)
    | NoProvider(databaseName: string)
    | EmptyConnectionString(databaseName: string)
    | NotSupported(provider: string)

  /** The configurations indexed by their case-folded names. */
  datatype Factory = Factory(byName: map<string, DatabaseConfig>)

  predicate NamesDistinctIgnoringCase(configs: seq<DatabaseConfig>)
  {
    forall i, j :: 0 <= i < j < |configs| ==> FoldCase(configs[i].name) != FoldCase(configs[j].name)
  }

  /** Configuration `j` is the first whose name repeats an earlier one
      ignoring case. */
  predicate FirstDuplicate(configs: seq<DatabaseConfig>, j: int)
  {
    && 0 < j < |configs|
    && NamesDistinctIgnoringCase(configs[..j])
    && exists i :: 0 <= i < j && FoldCase(configs[i].name) == FoldCase(configs[j].name)
  }

  /** `m` holds every configuration under its folded name, and nothing else. */
  predicate Indexes(configs: seq<DatabaseConfig>, m: map<string, DatabaseConfig>)
  {
    && (forall i :: 0 <= i < |configs| ==>
          FoldCase(configs[i].name) in m && m[FoldCase(configs[i].name)] == configs[i])
    && (forall k :: k in m ==> exists i :: 0 <= i < |configs| && FoldCase(configs[i].name) == k)
  }

  /** `ToDictionary(c => c.Name, OrdinalIgnoreCase)`: fails on the first name
      that repeats an earlier one ignoring case; otherwise every
      configuration is found under its folded name, and nothing else is. */
  function BuildIndex(configs: seq<DatabaseConfig>): (r: Result<map<string, DatabaseConfig>, FactoryError>)
    ensures r.Success? <==> NamesDistinctIgnoringCase(configs)
    ensures r.Failure? ==> exists j :: FirstDuplicate(configs, j) && r.error == DuplicateName(configs[j].name)
    ensures r.Success? ==> Indexes(configs, r.value)
  {
    if |configs| == 0 then Success(map[])
    else
      var prefix := configs[..|configs| - 1];
      var last := configs[|configs| - 1];
      match BuildIndex(prefix)
      case Failure(e) =>
        DuplicateInPrefix(configs);
        Failure(e)
      case Success(m) =>
        IndexExtends(prefix, last, m);
        assert configs == prefix + [last];
        if FoldCase(last.name) in m then
          assert configs[..|prefix|] == prefix;
          assert FirstDuplicate(configs, |prefix|);
          Failure(DuplicateName(last.name))
        else Success(m[FoldCase(last.name) := last])
  }

  /** A duplicate in the list without its last element is one in the whole
      list, found at the same place. */
  lemma DuplicateInPrefix(configs: seq<DatabaseConfig>)
    requires |configs| > 0
    ensures NamesDistinctIgnoringCase(configs) ==> NamesDistinctIgnoringCase(configs[..|configs| - 1])
    ensures forall j :: FirstDuplicate(configs[..|configs| - 1], j) ==> FirstDuplicate(configs, j)
  {
    var prefix := configs[..|configs| - 1];
    forall j | FirstDuplicate(prefix, j)
      ensures FirstDuplicate(configs, j)
    {
      assert configs[..j] == prefix[..j];
      var i :| 0 <= i < j && FoldCase(prefix[i].name) == FoldCase(prefix[j].name);
      assert configs[i] == prefix[i] && configs[j] == prefix[j];
    }
  }

  /** One more configuration: distinct exactly when its folded name is new,
      and then the extended map indexes the longer list. */
  lemma IndexExtends(prefix: seq<DatabaseConfig>, last: DatabaseConfig, m: map<string, DatabaseConfig>)
    requires NamesDistinctIgnoringCase(prefix) && Indexes(prefix, m)
    ensures NamesDistinctIgnoringCase(prefix + [last]) <==> FoldCase(last.name) !in m
    ensures FoldCase(last.name) !in m ==> Indexes(prefix + [last], m[FoldCase(last.name) := last])
  {
    var configs := prefix + [last];
    if FoldCase(last.name) in m {
      var i :| 0 <= i < |prefix| && FoldCase(prefix[i].name) == FoldCase(last.name);
      assert configs[i] == prefix[i] && configs[|prefix|] == last;
      assert FoldCase(configs[i].name) == FoldCase(configs[|prefix|].name);
    } else {
      forall i, j | 0 <= i < j < |configs|
        ensures FoldCase(configs[i].name) != FoldCase(configs[j].name)
      {
        if j == |prefix| {
          assert configs[i] == prefix[i];
        } else {
          assert configs[i] == prefix[i] && configs[j] == prefix[j];
        }
      }
      var m' := m[FoldCase(last.name) := last];
      forall k | k in m'
        ensures exists i :: 0 <= i < |configs| && FoldCase(configs[i].name) == k
      {
        if k == FoldCase(last.name) {
          assert configs[|prefix|] == last;
        } else {
          var i :| 0 <= i < |prefix| && FoldCase(prefix[i].name) == k;
          assert configs[i] == prefix[i];
        }
      }
      forall i | 0 <= i < |configs|
        ensures FoldCase(configs[i].name) in m' && m'[FoldCase(configs[i].name)] == configs[i]
      {
        if i < |prefix| {
          assert configs[i] == prefix[i];
        }
      }
    }
  }

  /** The constructor. */
  function NewFactory(options: MultiDbOptions): (r: Result<Factory, FactoryError>)
    ensures r.Success? <==> NamesDistinctIgnoringCase(options.databases)
  {
    var index :- BuildIndex(options.databases);
    Success(Factory(index))
  }

  /** The invariant names tried for a (trimmed) provider name; aliases are
      matched exactly, with case. */
  function Candidates(provider: string): seq<string>
  {
    if provider == "PostgreSql" || provider == "Postgres" || provider == "Npgsql" then ["Npgsql"]
    else if provider == "SqlServer" || provider == "MSSQL" then ["Microsoft.Data.SqlClient", "System.Data.SqlClient"]
    else if provider == "MySql" then ["MySql.Data.MySqlClient"]
    else if provider == "Sqlite" || provider == "SQLite" then ["Microsoft.Data.Sqlite"]
    else [provider]
  }

  /** The lookup of this name fails or its factory returns null: try the next. */
  predicate Skips(registry: Registry, name: string)
  {
    name !in registry || registry[name].ReturnsNull?
  }

  /** This name's factory yields a connection that accepts `connectionString`. */
  predicate Yields(registry: Registry, name: string, connectionString: string)
  {
    name in registry && registry[name].Creates? && connectionString !in registry[name].rejects
  }

  /** Candidate `i` is the first one that does not skip, and it yields. */
  predicate FirstYielding(candidates: seq<string>, registry: Registry, connectionString: string, i: int)
  {
    && 0 <= i < |candidates|
    && Yields(registry, candidates[i], connectionString)
    && forall j :: 0 <= j < i ==> Skips(registry, candidates[j])
  }

  /** `CreateProviderConnection`: walk the candidates in order; a failed
      lookup or a null connection moves on, a thrown exception (from the
      factory or from setting the connection string) is logged and ends the
      walk with nothing. The connection returned carries the configured
      connection string. */
  method CreateProviderConnection(provider: string, connectionString: string, registry: Registry)
    returns (r: Option<Connection>)
    ensures r.Some? <==> exists i :: FirstYielding(Candidates(provider), registry, connectionString, i)
    ensures r.Some? ==>
              && r.value.connectionString == connectionString
              && r.value.invariantName in Candidates(provider)
              && Yields(registry, r.value.invariantName, connectionString)
              && r.value.connectionType == registry[r.value.invariantName].connectionType
    ensures forall i :: FirstYielding(Candidates(provider), registry, connectionString, i) ==>
              r == Some(Connection(Candidates(provider)[i], registry[Candidates(provider)[i]].connectionType, connectionString))
  {
    var candidates := Candidates(provider);
    var i := 0;
    while i < |candidates|
      invariant 0 <= i <= |candidates|
      invariant forall j :: 0 <= j < i ==> Skips(registry, candidates[j])
    {
      var name := candidates[i];
      if name in registry {
        match registry[name]
        case ReturnsNull =>
        case Throws =>
          NoneYields(candidates, registry, connectionString, i);
          return None;
        case Creates(connectionType, rejects) =>
          if connectionString in rejects {
            NoneYields(candidates, registry, connectionString, i);
            return None;
          }
          assert FirstYielding(candidates, registry, connectionString, i);
          forall k | FirstYielding(candidates, registry, connectionString, k)
            ensures k == i
          {
            FirstYieldingUnique(candidates, registry, connectionString, i, k);
          }
          return Some(Connection(name, connectionType, connectionString));
      }
      i := i + 1;
    }
    NoneYields(candidates, registry, connectionString, i);
    return None;
  }

  /** When candidates before `k` all skip and candidate `k` (if any) neither
      skips nor yields, no candidate is the first to yield. */
  lemma NoneYields(candidates: seq<string>, registry: Registry, connectionString: string, k: int)
    requires 0 <= k <= |candidates|
    requires forall j :: 0 <= j < k ==> Skips(registry, candidates[j])
    requires k < |candidates| ==>
               !Skips(registry, candidates[k]) && !Yields(registry, candidates[k], connectionString)
    ensures !exists i :: FirstYielding(candidates, registry, connectionString, i)
  {
    forall i | 0 <= i < |candidates| && Yields(registry, candidates[i], connectionString)
      ensures exists j :: 0 <= j < i && !Skips(registry, candidates[j])
    {
      assert k < i;
    }
  }

  /** At most one candidate is the first to yield. */
  lemma FirstYieldingUnique(candidates: seq<string>, registry: Registry, connectionString: string, i: int, k: int)
    requires FirstYielding(candidates, registry, connectionString, i)
    requires FirstYielding(candidates, registry, connectionString, k)
    ensures i == k
  {
    assert !Skips(registry, candidates[i]) && !Skips(registry, candidates[k]);
  }

  /** `CreateConnection`: a blank name is an argument error; then the name
      is looked up ignoring case; then the trimmed provider and then the
      connection string must not be blank; then the provider lookup must
      yield a connection. */
  method CreateConnection(f: Factory, databaseName: string, registry: Registry)
    returns (r: Result<Connection, FactoryError>)
    ensures IsBlank(databaseName) ==> r == Failure(NameRequired)
    ensures !IsBlank(databaseName) && FoldCase(databaseName) !in f.byName ==>
              r == Failure(NoConfiguration(databaseName))
    ensures !IsBlank(databaseName) && FoldCase(databaseName) in f.byName ==>
              var config := f.byName[FoldCase(databaseName)];
              var provider := Trim(config.provider);
              && (IsBlank(config.provider) ==> r == Failure(NoProvider(databaseName)))
              && (!IsBlank(config.provider) && IsBlank(config.connectionString) ==>
                    r == Failure(EmptyConnectionString(databaseName)))
              && (!IsBlank(config.provider) && !IsBlank(config.connectionString) ==>
                    && (r.Success? <==> exists i :: FirstYielding(Candidates(provider), registry, config.connectionString, i))
                    && (r.Failure? ==> r.error == NotSupported(provider))
                    && (r.Success? ==>
                          && r.value.connectionString == config.connectionString
                          && r.value.invariantName in Candidates(provider))
                    && (forall i :: FirstYielding(Candidates(provider), registry, config.connectionString, i) ==>
                          r == Success(Connection(Candidates(provider)[i],
                                                  registry[Candidates(provider)[i]].connectionType,
                                                  config.connectionString))))
  {
    if IsBlank(databaseName) {
      return Failure(NameRequired);
    }
    var key := FoldCase(databaseName);
    if key !in f.byName {
      return Failure(NoConfiguration(databaseName));
    }
    var config := f.byName[key];
    var provider := Trim(config.provider);
    if IsBlank(provider) {
      return Failure(NoProvider(databaseName));
    }
    if IsBlank(config.connectionString) {
      return Failure(EmptyConnectionString(databaseName));
    }
    var connection := CreateProviderConnection(provider, config.connectionString, registry);
    if connection.None? {
      return Failure(NotSupported(provider));
    }
    return Success(connection.value);
  }

  /** A name finds a configuration exactly when some configured name equals
      it ignoring case, and then it finds that one. */
  lemma LookupIgnoresCase(options: MultiDbOptions, f: Factory, databaseName: string)
    requires NewFactory(options) == Success(f)
    ensures FoldCase(databaseName) in f.byName <==>
              exists i :: 0 <= i < |options.databases| && EqualsIgnoreCase(options.databases[i].name, databaseName)
    ensures forall i :: 0 <= i < |options.databases| && EqualsIgnoreCase(options.databases[i].name, databaseName) ==>
              f.byName[FoldCase(databaseName)] == options.databases[i]
  {
  }

  /** "SqlServer" falls back to the older SqlClient package when the newer
      one is not registered or returns no connection, and never reaches it
      when the newer one yields. */
  lemma SqlServerFallsBack(registry: Registry, connectionString: string)
    ensures Skips(registry, "Microsoft.Data.SqlClient") && Yields(registry, "System.Data.SqlClient", connectionString) ==>
              FirstYielding(Candidates("SqlServer"), registry, connectionString, 1)
    ensures Yields(registry, "Microsoft.Data.SqlClient", connectionString) ==>
              FirstYielding(Candidates("SqlServer"), registry, connectionString, 0)
    ensures "Microsoft.Data.SqlClient" in registry && registry["Microsoft.Data.SqlClient"].Throws? ==>
              !exists i :: FirstYielding(Candidates("SqlServer"), registry, connectionString, i)
  {
    var c := Candidates("SqlServer");
    if "Microsoft.Data.SqlClient" in registry && registry["Microsoft.Data.SqlClient"].Throws? {
      NoneYields(c, registry, connectionString, 0);
    }
  }

  /** Alias matching is exact: "Sqlite" and "SQLite" are aliases, "sqlite"
      is tried as an invariant name of its own; "SqlServer" tries both
      SqlClient packages, the newer first. */
  lemma AliasesAreCaseSensitive()
    ensures Candidates("Sqlite") == Candidates("SQLite") == ["Microsoft.Data.Sqlite"]
    ensures Candidates("sqlite") == ["sqlite"]
    ensures Candidates("SqlServer") == ["Microsoft.Data.SqlClient", "System.Data.SqlClient"]
    ensures Candidates("postgresql") == ["postgresql"]
  {
  }
}

=== FILE: exchange.dfy ===
/** The two roles talking to each other: how a client request reaches the
    server and how the server's response reaches the client, and what the
    protocol then guarantees end to end. */
module Exchange {
  import opened Wrappers
  import opened Text
  import opened Headers
  import opened Payload
  import opened Aead
  import opened SecureOptions
  import Gateway
  import Handler

  /** The server's view of a request the client sent. Header values cross
      unchanged; a real server would trim white space at either end. */
  function ToServer(r: Handler.Request): Gateway.Request
  {
    match r.content
    case None => Gateway.Request(r.headers, [], None, None)
    case Some(c) => Gateway.Request(r.headers, c.body, c.contentType, c.contentLength)
  }

  /** The client's view of a response the server sent, header values
      unchanged. */
  function ToClient(r: Gateway.Response): Handler.Response
  {
    Handler.Response(r.status, r.headers, Handler.Content(r.body, r.contentType, r.contentLength))
  }

  /** Client options `c` and server options `s` that can talk under `keyId`:
      same header names (pairwise distinct), same nonce and tag lengths, and
      the same key registered under `keyId` on both sides. */
  predicate Peers(c: Options, s: Options, keyId: string)
  {
    && HeaderNames(c) == HeaderNames(s)
    && DistinctHeaderNames(c)
    && c.nonceLength == s.nonceLength
    && c.tagLength == s.tagLength
    && keyId in c.keys && keyId in s.keys
    && c.keys[keyId] == s.keys[keyId]
  }

  lemma PeersShareNames(c: Options, s: Options, keyId: string)
    requires Peers(c, s, keyId)
    ensures c.encryptedFlagHeader == s.encryptedFlagHeader && c.keyIdHeader == s.keyIdHeader
    ensures c.fromSolutionHeader == s.fromSolutionHeader && c.toSolutionHeader == s.toSolutionHeader
    ensures c.originalContentTypeHeader == s.originalContentTypeHeader
    ensures DistinctHeaderNames(s)
  {
    assert HeaderNames(c)[0] == HeaderNames(s)[0] && HeaderNames(c)[1] == HeaderNames(s)[1];
    assert HeaderNames(c)[2] == HeaderNames(s)[2] && HeaderNames(c)[3] == HeaderNames(s)[3];
    assert HeaderNames(c)[4] == HeaderNames(s)[4];
  }

  /** The request the server decrypts: every protocol header of a rewritten
      request holds one value, which the server reads back as is. */
  lemma RewrittenHeadersRead(e: Aead, c: Options, s: Options, h: Handler.Handler, req: Handler.Request, nonce: Bytes)
    requires Peers(c, s, h.keyId)
    requires Handler.Rewrite(e, c, h, req, nonce).Success?
    ensures var sreq := ToServer(Handler.Rewrite(e, c, h, req, nonce).value);
            && Lookup(sreq.headers, s.encryptedFlagHeader) == Some("1")
            && Lookup(sreq.headers, s.keyIdHeader) == Some(h.keyId)
            && Lookup(sreq.headers, s.fromSolutionHeader) == Some(c.thisSolutionId)
            && Lookup(sreq.headers, s.toSolutionHeader) == Some(h.target)
            && Lookup(sreq.headers, s.originalContentTypeHeader) == Some(Handler.OriginalContentType(req))
  {
    PeersShareNames(c, s, h.keyId);
  }

  /** Request leg: what the client seals under `keyId|this|target` the server
      opens under `keyId|from|to`, because it reads from and to from the
      headers the client wrote. Downstream receives the original body with
      its original content type. */
  lemma RequestLegAgrees(e: Aead, c: Options, s: Options, h: Handler.Handler, req: Handler.Request, nonce: Bytes)
    requires Sound(e)
    requires Peers(c, s, h.keyId)
    requires |nonce| == c.nonceLength
    requires Handler.Rewrite(e, c, h, req, nonce).Success?
    ensures var sreq := ToServer(Handler.Rewrite(e, c, h, req, nonce).value);
            && Gateway.IsEncrypted(s, sreq)
            && Gateway.RequestAad(s, sreq, h.keyId) == Handler.OutboundAad(c, h)
            && Gateway.DecryptIncomingRequest(e, s, sreq)
               == Success(sreq.(body := Handler.Plaintext(req),
                                contentLength := Some(|Handler.Plaintext(req)|),
                                contentType := Some(Handler.OriginalContentType(req))))
  {
    var sent := Handler.Rewrite(e, c, h, req, nonce).value;
    var sreq := ToServer(sent);
    RewrittenHeadersRead(e, c, s, h, req, nonce);
    var p := e.seal(Handler.Plaintext(req), Handler.OutboundAad(c, h), c.keys[h.keyId], nonce, c.tagLength).value;
    assert sreq.body == Pack(p);
    RoundTrip(p);
  }

  /** The response associated data the server uses, against the one the
      client expects: with `Swapped` they always agree; as written they agree
      exactly when `this|target` reads the same as `target|this`. */
  lemma ResponseAadAgreement(e: Aead, c: Options, s: Options, h: Handler.Handler, req: Handler.Request, nonce: Bytes)
    requires Peers(c, s, h.keyId)
    requires Handler.Rewrite(e, c, h, req, nonce).Success?
    ensures var sreq := ToServer(Handler.Rewrite(e, c, h, req, nonce).value);
            && Gateway.ResponseAad(s, sreq, h.keyId, Gateway.Swapped) == Handler.InboundAad(c, h, h.keyId)
            && (Gateway.ResponseAad(s, sreq, h.keyId, Gateway.Unswapped) == Handler.InboundAad(c, h, h.keyId)
                <==> c.thisSolutionId + "|" + h.target == h.target + "|" + c.thisSolutionId)
  {
    RewrittenHeadersRead(e, c, s, h, req, nonce);
    var sreq := ToServer(Handler.Rewrite(e, c, h, req, nonce).value);
    var self, target := c.thisSolutionId, h.target;
    Regroup(h.keyId, self, target);
    Regroup(h.keyId, target, self);
    assert Gateway.ResponseAad(s, sreq, h.keyId, Gateway.Unswapped) == (h.keyId + "|") + (self + "|" + target);
    assert Handler.InboundAad(c, h, h.keyId) == (h.keyId + "|") + (target + "|" + self);
    PrefixCancels(h.keyId + "|", self + "|" + target, target + "|" + self);
  }

  lemma Regroup(k: string, a: string, b: string)
    ensures k + "|" + a + "|" + b == (k + "|") + (a + "|" + b)
  {
  }

  lemma PrefixCancels(k: string, x: string, y: string)
    ensures k + x == k + y <==> x == y
  {
    if k + x == k + y {
      assert x == (k + x)[|k|..] && y == (k + y)[|k|..];
    }
  }

  /** With solution ids that do not contain the separator, the two orders
      agree only when the ids are equal. */
  lemma SeparatorFreeAgreement(a: string, b: string)
    requires forall i :: 0 <= i < |a| ==> a[i] != '|'
    requires forall i :: 0 <= i < |b| ==> b[i] != '|'
    ensures a + "|" + b == b + "|" + a <==> a == b
  {
    if a + "|" + b == b + "|" + a {
      FirstSeparator(a, b);
      FirstSeparator(b, a);
      assert |a| == |b|;
      assert a == (a + "|" + b)[..|a|] == (b + "|" + a)[..|b|] == b;
    }
  }

  /** In `a|b` with a separator-free `a`, the first separator sits at `|a|`. */
  lemma FirstSeparator(a: string, b: string)
    requires forall i :: 0 <= i < |a| ==> a[i] != '|'
    ensures (a + "|" + b)[|a|] == '|'
    ensures forall i :: 0 <= i < |a| ==> (a + "|" + b)[i] != '|'
  {
    forall i | 0 <= i < |a|
      ensures (a + "|" + b)[i] != '|'
    {
      assert (a + "|" + b)[i] == a[i];
    }
  }

  /** The separator is not escaped: ids "x" and "x|x" are distinct, yet the
      two orders produce the same associated data. */
  lemma SeparatorCollision()
    ensures "x" != "x|x"
    ensures "x" + "|" + "x|x" == "x|x" + "|" + "x"
  {
  }

  /** The server's whole run on a rewritten request, for a downstream that
      completes: downstream gets the original body and content type, and the
      mirrored response goes out sealed under `ResponseAad`. */
  lemma ServerMirrors(e: Aead, c: Options, s: Options, h: Handler.Handler, req: Handler.Request,
                      n1: Bytes, app: Gateway.Downstream, n2: Bytes, binding: Gateway.ResponseBinding)
    requires Sound(e)
    requires Peers(c, s, h.keyId) && s.mirrorEncryptResponse
    requires |n1| == c.nonceLength
    requires Handler.Rewrite(e, c, h, req, n1).Success?
    requires app.Completed? && Gateway.KeepsRoutingHeaders(s, app)
    ensures var sreq := ToServer(Handler.Rewrite(e, c, h, req, n1).value);
            var out := Gateway.Invoke(e, s, sreq, app, n2, binding);
            var sealed := e.seal(app.body, Gateway.ResponseAad(s, sreq, h.keyId, binding), s.keys[h.keyId], n2, s.tagLength);
            && out.forwarded.Some?
            && out.forwarded.value.body == Handler.Plaintext(req)
            && out.forwarded.value.contentType == Some(Handler.OriginalContentType(req))
            && (sealed.Success? ==>
                  && out.raised.None?
                  && out.response.body == Pack(sealed.value)
                  && out.response.status == app.status
                  && out.response.headers[s.encryptedFlagHeader] == ["1"]
                  && out.response.headers[s.keyIdHeader] == [h.keyId]
                  && out.response.headers[s.originalContentTypeHeader] == [app.contentType.GetOr(OctetStream)])
  {
    PeersShareNames(c, s, h.keyId);
    RequestLegAgrees(e, c, s, h, req, n1);
    RewrittenHeadersRead(e, c, s, h, req, n1);
  }

  /** Response leg: a response the server sealed under the associated data
      the client expects is opened by the client, which gets back the
      downstream body with its content type and status, provided the
      content type is one the media-type constructor accepts. */
  lemma ResponseLegDelivers(e: Aead, c: Options, s: Options, h: Handler.Handler, resp: Gateway.Response,
                            body: Bytes, contentType: string, sealed: EncryptedPayload, n2: Bytes)
    requires Sound(e)
    requires Peers(c, s, h.keyId)
    requires |n2| == s.nonceLength
    requires e.seal(body, Handler.InboundAad(c, h, h.keyId), s.keys[h.keyId], n2, s.tagLength) == Success(sealed)
    requires resp.body == Pack(sealed)
    requires s.encryptedFlagHeader in resp.headers
    requires s.keyIdHeader in resp.headers && resp.headers[s.keyIdHeader] == [h.keyId]
    requires s.originalContentTypeHeader in resp.headers && resp.headers[s.originalContentTypeHeader] == [contentType]
    ensures Handler.IsBareMediaType(contentType) ==>
              && Handler.Unwrap(e, c, h, ToClient(resp)).Success?
              && var back := Handler.Unwrap(e, c, h, ToClient(resp)).value;
                 && back.content == Handler.Content(body, Some(contentType), Some(|body|))
                 && back.status == resp.status
    ensures !Handler.IsBareMediaType(contentType) ==>
              Handler.Unwrap(e, c, h, ToClient(resp)) == Failure(Handler.InvalidMediaType(contentType))
  {
    PeersShareNames(c, s, h.keyId);
    RoundTrip(sealed);
  }

  /** Response leg, mismatched: a response sealed under associated data the
      cipher tells apart from the one the client expects fails
      authentication at the client. */
  lemma ResponseLegRejects(e: Aead, c: Options, s: Options, h: Handler.Handler, resp: Gateway.Response,
                           body: Bytes, aad: string, sealed: EncryptedPayload, n2: Bytes)
    requires Sound(e)
    requires Peers(c, s, h.keyId)
    requires |n2| == s.nonceLength
    requires e.seal(body, aad, s.keys[h.keyId], n2, s.tagLength) == Success(sealed)
    requires Rejects(e, sealed, Handler.InboundAad(c, h, h.keyId), s.keys[h.keyId])
    requires resp.body == Pack(sealed)
    requires s.encryptedFlagHeader in resp.headers
    requires s.keyIdHeader in resp.headers && resp.headers[s.keyIdHeader] == [h.keyId]
    ensures Handler.Unwrap(e, c, h, ToClient(resp)).Failure?
    ensures Handler.Unwrap(e, c, h, ToClient(resp)).error.NotAuthentic?
  {
    PeersShareNames(c, s, h.keyId);
    RoundTrip(sealed);
  }

  /** The corrected exchange: with the server binding its response as
      `keyId|to|from`, a request sealed by the client reaches downstream
      intact, and downstream's response comes back to the client intact
      when its content type is a bare media type. A content type with
      parameters makes the client throw after decrypting. */
  lemma MirroredExchange(e: Aead, c: Options, s: Options, h: Handler.Handler, req: Handler.Request,
                         n1: Bytes, app: Gateway.Downstream, n2: Bytes)
    requires Sound(e)
    requires Peers(c, s, h.keyId) && s.mirrorEncryptResponse
    requires Accepts(e, c.keys[h.keyId], c.nonceLength, c.tagLength)
    requires |n1| == c.nonceLength && |n2| == s.nonceLength
    requires app.Completed? && Gateway.KeepsRoutingHeaders(s, app)
    ensures Handler.Rewrite(e, c, h, req, n1).Success?
    ensures var sreq := ToServer(Handler.Rewrite(e, c, h, req, n1).value);
            var out := Gateway.Invoke(e, s, sreq, app, n2, Gateway.Swapped);
            && out.forwarded.Some?
            && out.forwarded.value.body == Handler.Plaintext(req)
            && out.forwarded.value.contentType == Some(Handler.OriginalContentType(req))
            && out.raised.None?
            && var contentType := app.contentType.GetOr(OctetStream);
               && (Handler.IsBareMediaType(contentType) ==>
                     Handler.Send(e, c, h, req, n1, Handler.Delivered(ToClient(out.response)))
                     == Success(Handler.Response(
                          app.status,
                          out.response.headers - {c.encryptedFlagHeader, c.originalContentTypeHeader},
                          Handler.Content(app.body, Some(contentType), Some(|app.body|)))))
               && (!Handler.IsBareMediaType(contentType) ==>
                     Handler.Send(e, c, h, req, n1, Handler.Delivered(ToClient(out.response)))
                     == Failure(Handler.InvalidMediaType(contentType)))
  {
    PeersShareNames(c, s, h.keyId);
    var sreq := ToServer(Handler.Rewrite(e, c, h, req, n1).value);
    ResponseAadAgreement(e, c, s, h, req, n1);
    var aad := Gateway.ResponseAad(s, sreq, h.keyId, Gateway.Swapped);
    var sealed := e.seal(app.body, aad, s.keys[h.keyId], n2, s.tagLength);
    assert sealed.Success?;
    ServerMirrors(e, c, s, h, req, n1, app, n2, Gateway.Swapped);
    var out := Gateway.Invoke(e, s, sreq, app, n2, Gateway.Swapped);
    ResponseLegDelivers(e, c, s, h, out.response, app.body, app.contentType.GetOr(OctetStream), sealed.value, n2);
  }

  /** The exchange as written: the server binds its response as
      `keyId|from|to` while the client opens it as `keyId|target|this`. For
      a cipher that tells those two apart on this payload the client's
      unwrap fails authentication, although the server handled the request
      successfully. */
  lemma UnswappedResponseRejected(e: Aead, c: Options, s: Options, h: Handler.Handler, req: Handler.Request,
                                  n1: Bytes, app: Gateway.Downstream, n2: Bytes)
    requires Sound(e)
    requires Peers(c, s, h.keyId) && s.mirrorEncryptResponse
    requires Accepts(e, c.keys[h.keyId], c.nonceLength, c.tagLength)
    requires |n1| == c.nonceLength && |n2| == s.nonceLength
    requires app.Completed? && Gateway.KeepsRoutingHeaders(s, app)
    requires Separates(e, s.keys[h.keyId], app.body, n2, s.tagLength,
                       h.keyId + "|" + c.thisSolutionId + "|" + h.target,
                       h.keyId + "|" + h.target + "|" + c.thisSolutionId)
    ensures Handler.Rewrite(e, c, h, req, n1).Success?
    ensures var sreq := ToServer(Handler.Rewrite(e, c, h, req, n1).value);
            var out := Gateway.Invoke(e, s, sreq, app, n2, Gateway.Unswapped);
            && out.forwarded.Some? && out.raised.None?
            && Handler.Send(e, c, h, req, n1, Handler.Delivered(ToClient(out.response))).Failure?
            && Handler.Send(e, c, h, req, n1, Handler.Delivered(ToClient(out.response))).error.NotAuthentic?
  {
    PeersShareNames(c, s, h.keyId);
    var sreq := ToServer(Handler.Rewrite(e, c, h, req, n1).value);
    RewrittenHeadersRead(e, c, s, h, req, n1);
    var aad := Gateway.ResponseAad(s, sreq, h.keyId, Gateway.Unswapped);
    assert aad == h.keyId + "|" + c.thisSolutionId + "|" + h.target;
    var sealed := e.seal(app.body, aad, s.keys[h.keyId], n2, s.tagLength);
    assert sealed.Success?;
    ServerMirrors(e, c, s, h, req, n1, app, n2, Gateway.Unswapped);
    var out := Gateway.Invoke(e, s, sreq, app, n2, Gateway.Unswapped);
    ResponseLegRejects(e, c, s, h, out.response, app.body, aad, sealed.value, n2);
  }

  /** The as-written failure is not hypothetical: for ids "A" and "B" the
      transparent cipher, which meets every guarantee in `Sound`, tells the
      two response bindings apart. */
  lemma TransparentSeparatesResponseBindings(key: Bytes, body: Bytes, nonce: Bytes)
    ensures Sound(Transparent())
    ensures Separates(Transparent(), key, body, nonce, 16, "k1|A|B", "k1|B|A")
  {
    TransparentIsSound();
    var t := AadPrefixTag("k1|A|B", 16);
    assert t[3] != AadPrefixTag("k1|B|A", 16)[3];
  }

  /** The flag header is read differently by the two roles: a value other
      than "1" makes the server pass the request through untouched, while
      the client treats any flagged response as encrypted. */
  lemma FlagCheckedDifferently(e: Aead, o: Options, h: Handler.Handler, req: Gateway.Request, app: Gateway.Downstream,
                               nonce: Bytes, binding: Gateway.ResponseBinding, resp: Handler.Response)
    requires req.headers == map[o.encryptedFlagHeader := ["0"]]
    requires resp.headers == map[o.encryptedFlagHeader := ["0"]]
    requires DistinctHeaderNames(o)
    ensures Gateway.Invoke(e, o, req, app, nonce, binding).forwarded == Some(req)
    ensures Handler.Unwrap(e, o, h, resp) == Failure(Handler.MissingResponseKeyId)
  {
    DistinctHeaderNamesPairwise(o);
    assert Lookup(req.headers, o.encryptedFlagHeader) == Some("0");
  }

  /** The concrete exchange: solution "A" sends "hello" to solution "B"
      under key id "k1" with default options and the transparent cipher, and
      B's application answers "hi". Downstream at B receives "hello"; as
      written, A rejects the mirrored answer; with the swapped binding A
      reads "hi". */
  lemma HelloFromAToB(key: Bytes, n1: Bytes, n2: Bytes)
    requires |n1| == 12 && |n2| == 12
    ensures var c := Default().(keys := map["k1" := key], thisSolutionId := "A");
            var s := Default().(keys := map["k1" := key], thisSolutionId := "B");
            var h := Handler.New(c, "B", Some("k1"));
            var req := Handler.Request(map[], Some(Handler.Content(AsciiBytes("hello"), Some("text/plain"), None)));
            var app := Gateway.Completed(200, map[], Some("text/plain"), AsciiBytes("hi"), map[]);
            var e := Transparent();
            && Handler.Rewrite(e, c, h, req, n1).Success?
            && var sreq := ToServer(Handler.Rewrite(e, c, h, req, n1).value);
               var asWritten := Gateway.Invoke(e, s, sreq, app, n2, Gateway.Unswapped);
               var corrected := Gateway.Invoke(e, s, sreq, app, n2, Gateway.Swapped);
               && asWritten.forwarded.Some? && asWritten.forwarded.value.body == AsciiBytes("hello")
               && asWritten.raised.None?
               && Handler.Send(e, c, h, req, n1, Handler.Delivered(ToClient(asWritten.response))).Failure?
               && Handler.Send(e, c, h, req, n1, Handler.Delivered(ToClient(corrected.response))).Success?
               && Handler.Send(e, c, h, req, n1, Handler.Delivered(ToClient(corrected.response))).value.content.body
                  == AsciiBytes("hi")
  {
    var c := Default().(keys := map["k1" := key], thisSolutionId := "A");
    var s := Default().(keys := map["k1" := key], thisSolutionId := "B");
    var h := Handler.New(c, "B", Some("k1"));
    var req := Handler.Request(map[], Some(Handler.Content(AsciiBytes("hello"), Some("text/plain"), None)));
    var app := Gateway.Completed(200, map[], Some("text/plain"), AsciiBytes("hi"), map[]);
    var e := Transparent();
    DefaultsAreTheProtocolConstants();
    assert Peers(c, s, h.keyId);
    TransparentIsSound();
    TransparentSeparatesResponseBindings(key, app.body, n2);
    Handler.PlainMediaTypesAccepted();
    assert h.keyId + "|" + c.thisSolutionId + "|" + h.target == "k1|A|B";
    assert h.keyId + "|" + h.target + "|" + c.thisSolutionId == "k1|B|A";
    MirroredExchange(e, c, s, h, req, n1, app, n2);
    UnswappedResponseRejected(e, c, s, h, req, n1, app, n2);
    RequestLegAgrees(e, c, s, h, req, n1);
  }
}

=== FILE: gateway.dfy ===
/** The server role (`EncryptedCommunicationMiddleware.InvokeAsync`) as one
    function from the options, the incoming request and what the downstream
    application did, to the request handed downstream (if any), the response
    and the exception that escapes (if any). The nonce the cipher draws for
    the response is an input. */
module Gateway {
  import opened Wrappers
  import opened Text
  import opened Headers
  import opened Payload
  import opened Aead
  import opened SecureOptions

  datatype Request = Request(headers: Headers, body: Bytes, contentType: Option<string>, contentLength: Option<int>)

  /** `body` is what has been written to the real response stream. */
  datatype Response = Response(
    status: int,
    headers: Headers,
    body: Bytes,
    contentType: Option<string>,
    contentLength: Option<int>,
    hasStarted: bool)

  /** What the downstream application did with the request. */
  datatype Downstream =
    /** It returned normally after setting these and writing `body`, having
        made `requestEdits` to the request headers, which the response
        encryption reads afterwards. */
    | Completed(status: int, headers: Headers, contentType: Option<string>, body: Bytes, requestEdits: HeaderEdits)
    /** It threw `OperationCanceledException`; `timeoutFired` tells whether
        this middleware's timeout source had been cancelled by then, and
        `started` whether the response had already started. */
    | Cancelled(timeoutFired: bool, started: bool)
    /** It threw anything else. */
    | Failed

  /** The exception that leaves `InvokeAsync`. */
  datatype GatewayError =
    /** The cancellation thrown after a 400 was written. */
    | Rejected(reason: string)
    | Malformed(codec: CodecError)
    | NotAuthentic(crypto: CryptoError)
    | SealFailed(crypto: CryptoError)
    | CancelledByCaller
    | DownstreamFailed

  /** Why decrypting the incoming request stopped. */
  datatype Rejection =
    | MissingKeyId
    | UnknownKeyId
    | MalformedPayload(codec: CodecError)
    | DecryptFailed(crypto: CryptoError)

  /** Which way round the response associated data names the two solutions.
      `Unswapped` is the source's `keyId|from|to`; `Swapped` is `keyId|to|from`,
      the order the client expects. */
  datatype ResponseBinding = Unswapped | Swapped

  datatype Outcome = Outcome(forwarded: Option<Request>, response: Response, raised: Option<GatewayError>) {
    predicate Invoked() { forwarded.Some? }
  }

  const MissingKeyIdText: Bytes := AsciiBytes("Missing key id header.")
  const UnknownKeyIdText: Bytes := AsciiBytes("Unknown key id.")
  const TimedOutText: Bytes := AsciiBytes("Request timed out.")

  /** The response as the middleware finds it. */
  function Fresh(): Response
  {
    Response(200, map[], [], None, None, false)
  }

  /** Writing bytes to the real response stream starts the response. */
  function Write(r: Response, bytes: Bytes): (w: Response)
    ensures |w.body| == |r.body| + |bytes|
    ensures w.body[..|r.body|] == r.body && w.body[|r.body|..] == bytes
    ensures w.hasStarted == (r.hasStarted || |bytes| > 0)
    ensures w.(body := r.body, hasStarted := r.hasStarted) == r
  {
    r.(body := r.body + bytes, hasStarted := r.hasStarted || |bytes| > 0)
  }

  /** The request is encrypted exactly when the flag header, read as one
      string, is "1"; empty values are skipped by that read. */
  predicate IsEncrypted(o: Options, req: Request)
  {
    Lookup(req.headers, o.encryptedFlagHeader) == Some("1")
  }

  lemma IsEncryptedIffSingleOne(o: Options, req: Request)
    ensures IsEncrypted(o, req) <==>
              o.encryptedFlagHeader in req.headers && NonEmpty(req.headers[o.encryptedFlagHeader]) == ["1"]
  {
    if o.encryptedFlagHeader in req.headers {
      JoinedSingle(req.headers[o.encryptedFlagHeader], "1");
    }
  }

  /** A flag header holding an empty value before "1" still marks the
      request as encrypted. */
  lemma EmptyFlagValueIsSkipped(o: Options, req: Request)
    requires req.headers == map[o.encryptedFlagHeader := ["", "1"]]
    ensures IsEncrypted(o, req)
  {
    IsEncryptedIffSingleOne(o, req);
    assert NonEmpty(["", "1"]) == NonEmpty(["1"]) == ["1"];
  }

  /** `keyId|from|to`, a missing from or to header read as "". */
  function RequestAad(o: Options, req: Request, keyId: string): string
  {
    keyId + "|" + Lookup(req.headers, o.fromSolutionHeader).GetOr("") + "|"
    + Lookup(req.headers, o.toSolutionHeader).GetOr("")
  }

  /** The associated data of the re-encrypted response: from defaults to this
      solution, to defaults to "". */
  function ResponseAad(o: Options, req: Request, keyId: string, binding: ResponseBinding): string
  {
    var from := Lookup(req.headers, o.fromSolutionHeader).GetOr(o.thisSolutionId);
    var to := Lookup(req.headers, o.toSolutionHeader).GetOr("");
    match binding
    case Unswapped => keyId + "|" + from + "|" + to
    case Swapped => keyId + "|" + to + "|" + from
  }

  /** `DecryptIncomingRequestAsync`: the key id must be present and known
      before anything is read; the body is split with the configured lengths
      and opened under `RequestAad`; on success only the body, its length
      and its content type change. */
  function DecryptIncomingRequest(e: Aead, o: Options, req: Request): (r: Result<Request, Rejection>)
    ensures r == Failure(MissingKeyId) <==> o.keyIdHeader !in req.headers
    ensures r == Failure(UnknownKeyId) <==>
              o.keyIdHeader in req.headers && Joined(req.headers[o.keyIdHeader]) !in o.keys
    ensures r.Success? ==>
              var keyId := Joined(req.headers[o.keyIdHeader]);
              && o.keyIdHeader in req.headers && keyId in o.keys
              && Unpack(req.body, o.nonceLength, o.tagLength).Success?
              && e.open(Unpack(req.body, o.nonceLength, o.tagLength).value, RequestAad(o, req, keyId), o.keys[keyId])
                 == Success(r.value.body)
              && r.value.headers == req.headers
              && r.value.contentLength == Some(|r.value.body|)
              && r.value.contentType == Some(Lookup(req.headers, o.originalContentTypeHeader).GetOr(OctetStream))
    ensures r.Failure? && r.error.MalformedPayload? ==>
              Unpack(req.body, o.nonceLength, o.tagLength) == Failure(r.error.codec)
    // With a known key id the outcome is decided by the split and the cipher.
    ensures o.keyIdHeader in req.headers && Joined(req.headers[o.keyIdHeader]) in o.keys ==>
              var keyId := Joined(req.headers[o.keyIdHeader]);
              var unpacked := Unpack(req.body, o.nonceLength, o.tagLength);
              && (unpacked.Failure? ==> r == Failure(MalformedPayload(unpacked.error)))
              && (unpacked.Success? ==>
                    var decrypted := e.open(unpacked.value, RequestAad(o, req, keyId), o.keys[keyId]);
                    && (decrypted.Failure? ==> r == Failure(DecryptFailed(decrypted.error)))
                    && (decrypted.Success? ==>
                          r.Success? && r.value.body == decrypted.value))
  {
    match Lookup(req.headers, o.keyIdHeader)
    case None => Failure(MissingKeyId)
    case Some(keyId) =>
      if keyId !in o.keys then Failure(UnknownKeyId)
      else
        var contentType := Lookup(req.headers, o.originalContentTypeHeader).GetOr(OctetStream);
        match Unpack(req.body, o.nonceLength, o.tagLength)
        case Failure(c) => Failure(MalformedPayload(c))
        case Success(p) =>
          match e.open(p, RequestAad(o, req, keyId), o.keys[keyId])
          case Failure(c) => Failure(DecryptFailed(c))
          case Success(plaintext) =>
            Success(req.(body := plaintext, contentLength := Some(|plaintext|), contentType := Some(contentType)))
  }

  /** `EncryptOutgoingResponseAsync`: with the request's key id missing or
      unknown the buffered bytes go out unchanged; otherwise they are sealed
      under `ResponseAad` and the packed payload goes out under
      octet-stream, with the flag, key-id and original-content-type headers
      set and every other header left as it was. */
  function EncryptOutgoingResponse(
    e: Aead, o: Options, req: Request, resp: Response, buffer: Bytes, nonce: Bytes, binding: ResponseBinding)
    : (r: Result<Response, CryptoError>)
    ensures (o.keyIdHeader !in req.headers || Joined(req.headers[o.keyIdHeader]) !in o.keys) ==>
              r == Success(Write(resp, buffer))
    ensures o.keyIdHeader in req.headers && Joined(req.headers[o.keyIdHeader]) in o.keys ==>
              var keyId := Joined(req.headers[o.keyIdHeader]);
              var sealed := e.seal(buffer, ResponseAad(o, req, keyId, binding), o.keys[keyId], nonce, o.tagLength);
              && (r.Success? <==> sealed.Success?)
              && (r.Failure? ==> r.error == sealed.error)
              && (r.Success? ==>
                    && r.value.body == resp.body + Pack(sealed.value)
                    && r.value.contentType == Some(OctetStream)
                    && r.value.contentLength == Some(|Pack(sealed.value)|)
                    && r.value.status == resp.status
                    && r.value.headers.Keys == resp.headers.Keys + {o.encryptedFlagHeader, o.keyIdHeader, o.originalContentTypeHeader}
                    && (forall n :: n in resp.headers && n !in {o.encryptedFlagHeader, o.keyIdHeader, o.originalContentTypeHeader} ==>
                          r.value.headers[n] == resp.headers[n])
                    && (DistinctHeaderNames(o) ==>
                          && r.value.headers[o.encryptedFlagHeader] == ["1"]
                          && r.value.headers[o.keyIdHeader] == [keyId]
                          && r.value.headers[o.originalContentTypeHeader] == [resp.contentType.GetOr(OctetStream)]))
  {
    match Lookup(req.headers, o.keyIdHeader)
    case None => Success(Write(resp, buffer))
    case Some(keyId) =>
      if keyId !in o.keys then Success(Write(resp, buffer))
      else
        var originalContentType := resp.contentType.GetOr(OctetStream);
        match e.seal(buffer, ResponseAad(o, req, keyId, binding), o.keys[keyId], nonce, o.tagLength)
        case Failure(c) => Failure(c)
        case Success(p) =>
          var packed := Pack(p);
          DistinctHeaderNamesPairwise(o);
          var headers := Set(Set(Set(resp.headers, o.encryptedFlagHeader, "1"), o.keyIdHeader, keyId),
                             o.originalContentTypeHeader, originalContentType);
          Success(Write(resp.(headers := headers, contentType := Some(OctetStream), contentLength := Some(|packed|)), packed))
  }

  /** Downstream left the key-id, from and to request headers as they were. */
  predicate KeepsRoutingHeaders(o: Options, app: Downstream)
  {
    app.Completed? ==>
      && o.keyIdHeader !in app.requestEdits
      && o.fromSolutionHeader !in app.requestEdits
      && o.toSolutionHeader !in app.requestEdits
  }

  /** The request as the response encryption reads it: `forwarded` with
      the header changes downstream made. */
  function AfterDownstream(forwarded: Request, app: Downstream): (r: Request)
    requires app.Completed?
    ensures r.headers == Edit(forwarded.headers, app.requestEdits)
    ensures r.(headers := forwarded.headers) == forwarded
  {
    forwarded.(headers := Edit(forwarded.headers, app.requestEdits))
  }

  /** When downstream keeps the routing headers, the response encryption
      finds the same key id and builds the same associated data as it would
      from the request downstream received. */
  lemma RoutingHeadersSurvive(o: Options, forwarded: Request, app: Downstream, binding: ResponseBinding)
    requires app.Completed? && KeepsRoutingHeaders(o, app)
    ensures Lookup(AfterDownstream(forwarded, app).headers, o.keyIdHeader) == Lookup(forwarded.headers, o.keyIdHeader)
    ensures forall keyId :: ResponseAad(o, AfterDownstream(forwarded, app), keyId, binding)
                            == ResponseAad(o, forwarded, keyId, binding)
  {
    LookupSurvivesEdit(forwarded.headers, app.requestEdits, o.keyIdHeader);
    LookupSurvivesEdit(forwarded.headers, app.requestEdits, o.fromSolutionHeader);
    LookupSurvivesEdit(forwarded.headers, app.requestEdits, o.toSolutionHeader);
  }

  /** The 400 written for a rejected encrypted request, and the exception. */
  function Reject(why: Rejection): (out: Outcome)
    ensures !out.Invoked() && out.raised.Some?
  {
    match why
    case MissingKeyId =>
      Outcome(None, Write(Fresh().(status := 400), MissingKeyIdText), Some(Rejected("Missing key id header")))
    case UnknownKeyId =>
      Outcome(None, Write(Fresh().(status := 400), UnknownKeyIdText), Some(Rejected("Unknown key id")))
    case MalformedPayload(c) => Outcome(None, Fresh(), Some(Malformed(c)))
    case DecryptFailed(c) => Outcome(None, Fresh(), Some(NotAuthentic(c)))
  }

  /** The response after the timeout fired before anything was sent: it is
      cleared and given status 504, and the message goes to the current
      response stream. When the response is being buffered that stream is
      the buffer, which is never flushed. */
  function TimedOut(buffered: bool): Response
  {
    var cleared := Fresh().(status := 504);
    if buffered then cleared else Write(cleared, TimedOutText)
  }

  /** `InvokeAsync`. */
  function Invoke(e: Aead, o: Options, req: Request, app: Downstream, nonce: Bytes, binding: ResponseBinding)
    : (out: Outcome)
    // A request without the flag set to "1" reaches downstream unchanged.
    ensures !IsEncrypted(o, req) ==> out.forwarded == Some(req)
    // Malformed encrypted requests get a 400 and never reach downstream.
    ensures IsEncrypted(o, req) && o.keyIdHeader !in req.headers ==>
              && !out.Invoked()
              && out.response.status == 400
              && out.response.body == MissingKeyIdText
              && out.raised == Some(Rejected("Missing key id header"))
    ensures IsEncrypted(o, req) && o.keyIdHeader in req.headers && Joined(req.headers[o.keyIdHeader]) !in o.keys ==>
              && !out.Invoked()
              && out.response.status == 400
              && out.response.body == UnknownKeyIdText
              && out.raised == Some(Rejected("Unknown key id"))
    // A payload that does not split or does not open escapes as the codec's
    // or the cipher's exception, with nothing written to the response.
    ensures IsEncrypted(o, req) && DecryptIncomingRequest(e, o, req).Failure? ==>
              var why := DecryptIncomingRequest(e, o, req).error;
              && (why.MalformedPayload? ==> out == Outcome(None, Fresh(), Some(Malformed(why.codec))))
              && (why.DecryptFailed? ==> out == Outcome(None, Fresh(), Some(NotAuthentic(why.crypto))))
    // Downstream sees either the untouched request or its decryption.
    ensures out.Invoked() <==>
              !IsEncrypted(o, req) || DecryptIncomingRequest(e, o, req).Success?
    ensures out.Invoked() && IsEncrypted(o, req) ==>
              out.forwarded == Some(DecryptIncomingRequest(e, o, req).value)
    // Cancellation: a timeout before the response started is a 504 and
    // nothing is re-encrypted; any other cancellation escapes.
    ensures out.Invoked() && app.Cancelled? && app.timeoutFired && !app.started ==>
              && out.raised.None?
              && out.response.status == 504
              && out.response.headers == map[]
              && (out.response.body == TimedOutText <==> !(o.mirrorEncryptResponse && IsEncrypted(o, req)))
              && (o.mirrorEncryptResponse && IsEncrypted(o, req) ==> out.response.body == [])
    ensures out.Invoked() && app.Cancelled? && app.timeoutFired && app.started ==>
              out.raised.None? && out.response == Fresh().(hasStarted := true)
    ensures out.Invoked() && app.Cancelled? && !app.timeoutFired ==>
              out.raised == Some(CancelledByCaller) && out.response == Fresh().(hasStarted := app.started)
    ensures out.Invoked() && app.Failed? ==> out.raised == Some(DownstreamFailed) && out.response == Fresh()
    // Normal completion: the response is passed through unless it is mirrored.
    ensures out.Invoked() && app.Completed? && !(o.mirrorEncryptResponse && IsEncrypted(o, req)) ==>
              && out.raised.None?
              && out.response.status == app.status
              && out.response.headers == app.headers
              && out.response.contentType == app.contentType
              && out.response.body == app.body
    ensures out.Invoked() && app.Completed? && o.mirrorEncryptResponse && IsEncrypted(o, req) ==>
              var shaped := Fresh().(status := app.status, headers := app.headers, contentType := app.contentType);
              var r := EncryptOutgoingResponse(e, o, AfterDownstream(out.forwarded.value, app), shaped, app.body, nonce, binding);
              && (r.Success? ==> out.raised.None? && out.response == r.value)
              && (r.Failure? ==> out.raised == Some(SealFailed(r.error)) && out.response == shaped)
  {
    var encrypted := IsEncrypted(o, req);
    var decrypted := if encrypted then DecryptIncomingRequest(e, o, req) else Success(req);
    if decrypted.Failure? then Reject(decrypted.error)
    else
      var forwarded := decrypted.value;
      var buffered := o.mirrorEncryptResponse && encrypted;
      match app
      case Failed => Outcome(Some(forwarded), Fresh(), Some(DownstreamFailed))
      case Cancelled(fired, started) =>
        if !fired then Outcome(Some(forwarded), Fresh().(hasStarted := started), Some(CancelledByCaller))
        else if started then Outcome(Some(forwarded), Fresh().(hasStarted := true), None)
        else Outcome(Some(forwarded), TimedOut(buffered), None)
      case Completed(status, headers, contentType, body, _) =>
        var shaped := Fresh().(status := status, headers := headers, contentType := contentType);
        if !buffered then Outcome(Some(forwarded), Write(shaped, body), None)
        else
          match EncryptOutgoingResponse(e, o, AfterDownstream(forwarded, app), shaped, body, nonce, binding)
          case Success(r) => Outcome(Some(forwarded), r, None)
          case Failure(c) => Outcome(Some(forwarded), shaped, Some(SealFailed(c)))
  }

  /** A mirrored request has already shown a known key id, so as long as
      downstream leaves the key-id request header alone the pass-through
      branches of the re-encryption are not taken: a completed mirrored
      response goes out flagged and under octet-stream unless the cipher
      refuses. */
  lemma MirroredResponseIsAlwaysSealed(e: Aead, o: Options, req: Request, app: Downstream, nonce: Bytes, binding: ResponseBinding)
    requires DistinctHeaderNames(o)
    requires o.mirrorEncryptResponse && IsEncrypted(o, req) && app.Completed?
    requires o.keyIdHeader !in app.requestEdits
    ensures var out := Invoke(e, o, req, app, nonce, binding);
            out.Invoked() && out.raised.None? ==>
              && out.response.headers[o.encryptedFlagHeader] == ["1"]
              && out.response.headers[o.keyIdHeader] == [Joined(req.headers[o.keyIdHeader])]
              && out.response.contentType == Some(OctetStream)
  {
    var out := Invoke(e, o, req, app, nonce, binding);
    if out.Invoked() && out.raised.None? {
      var fwd := DecryptIncomingRequest(e, o, req).value;
      assert fwd.headers == req.headers;
      LookupSurvivesEdit(fwd.headers, app.requestEdits, o.keyIdHeader);
    }
  }

  /** The re-encryption reads the request headers after downstream ran: a
      downstream that removes the key-id request header makes the buffered
      response go out as it stands, unflagged and in plain text. */
  lemma KeyIdRemovedDownstreamSendsPlaintext(e: Aead, o: Options, req: Request, app: Downstream, nonce: Bytes, binding: ResponseBinding)
    requires o.mirrorEncryptResponse && IsEncrypted(o, req) && DecryptIncomingRequest(e, o, req).Success?
    requires app.Completed? && o.keyIdHeader in app.requestEdits && app.requestEdits[o.keyIdHeader].None?
    ensures var out := Invoke(e, o, req, app, nonce, binding);
            && out.Invoked() && out.raised.None?
            && out.response.status == app.status
            && out.response.headers == app.headers
            && out.response.contentType == app.contentType
            && out.response.body == app.body
  {
  }
}

=== FILE: handler.dfy ===
/** The client role (`EncryptedHttpMessageHandler`): the outbound rewrite of
    a request, the inbound unwrap of its response, and `SendAsync`, which
    chains them around the transport. The transport's outcome and the nonce
    the cipher draws are inputs. */
module Handler {
  import opened Wrappers
  import opened Text
  import opened Headers
  import opened Payload
  import opened Aead
  import opened SecureOptions

  /** A handler bound to one target solution and one key id. */
  datatype Handler = Handler(target: string, keyId: string)

  datatype Content = Content(body: Bytes, contentType: Option<string>, contentLength: Option<int>)

  datatype Request = Request(headers: Headers, content: Option<Content>)

  datatype Response = Response(status: int, headers: Headers, content: Content)

  /** What the transport below the handler did with the rewritten request. */
  datatype Transport =
    | Delivered(response: Response)
    /** Cancelled; `timeoutFired` tells whether the handler's own timeout
        source had been cancelled. */
    | Aborted(timeoutFired: bool)
    | Broken

  /** The exception `SendAsync` throws. */
  datatype ClientError =
    | UnknownKeyId(keyId: string)
    | SealFailed(crypto: CryptoError)
    | MissingResponseKeyId
    /** `First` on a header that is present without values. */
    | EmptyHeaderValues
    | UnknownResponseKeyId(responseKeyId: string)
    | Malformed(codec: CodecError)
    | NotAuthentic(crypto: CryptoError)
    /** `new MediaTypeHeaderValue` refused the restored content type. */
    | InvalidMediaType(contentType: string)
    | TimedOut(after: Duration)
    | CancelledByCaller
    | TransportFailed

  /** The constructor: the explicit key id, else the configured default. */
  function New(o: Options, target: string, keyId: Option<string>): (h: Handler)
    ensures h.target == target
    ensures keyId.Some? ==> h.keyId == keyId.value
    ensures keyId.None? ==> h.keyId == o.defaultKeyId
  {
    Handler(target, keyId.GetOr(o.defaultKeyId))
  }

  /** `keyId|this|target`: the request leg names the sender first. */
  function OutboundAad(o: Options, h: Handler): string
  {
    h.keyId + "|" + o.thisSolutionId + "|" + h.target
  }

  /** `keyId|target|this`: the handler expects the response leg to name the
      responder first. */
  function InboundAad(o: Options, h: Handler, responseKeyId: string): string
  {
    responseKeyId + "|" + h.target + "|" + o.thisSolutionId
  }

  function ProtocolNames(o: Options): set<string>
  {
    {o.encryptedFlagHeader, o.keyIdHeader, o.fromSolutionHeader, o.toSolutionHeader, o.originalContentTypeHeader}
  }

  /** `r` is `headers` with the five protocol headers rewritten: it holds
      the old names and the protocol names, every other header keeps its
      values, and when the names are distinct each protocol header holds
      exactly its new value. */
  ghost predicate RewritesProtocolHeaders(o: Options, headers: Headers, keyId: string, from: string, to: string,
                                    contentType: string, r: Headers)
  {
    && (forall n :: n in r <==> n in headers || n in ProtocolNames(o))
    && o.encryptedFlagHeader in r && o.keyIdHeader in r && o.fromSolutionHeader in r
    && o.toSolutionHeader in r && o.originalContentTypeHeader in r
    && (forall n :: n in headers && n !in ProtocolNames(o) ==> r[n] == headers[n])
    && (DistinctHeaderNames(o) ==>
          && r[o.encryptedFlagHeader] == ["1"]
          && r[o.keyIdHeader] == [keyId]
          && r[o.fromSolutionHeader] == [from]
          && r[o.toSolutionHeader] == [to]
          && r[o.originalContentTypeHeader] == [contentType])
  }

  /** Remove each protocol header, then add it back with one value. When the
      names are distinct each of the five ends up with exactly its new value
      and no other header changes. */
  function ProtocolHeaders(o: Options, headers: Headers, keyId: string, from: string, to: string, contentType: string)
    : (r: Headers)
    ensures RewritesProtocolHeaders(o, headers, keyId, from, to, contentType, r)
  {
    var cleared :=
      Remove(Remove(Remove(Remove(Remove(headers,
        o.encryptedFlagHeader), o.keyIdHeader), o.fromSolutionHeader), o.toSolutionHeader), o.originalContentTypeHeader);
    RemovedAll(o, headers, cleared);
    var h1 := Add(cleared, o.encryptedFlagHeader, "1");
    var h2 := Add(h1, o.keyIdHeader, keyId);
    var h3 := Add(h2, o.fromSolutionHeader, from);
    var h4 := Add(h3, o.toSolutionHeader, to);
    var r := Add(h4, o.originalContentTypeHeader, contentType);
    ProtocolHeadersSteps(o, headers, cleared, h1, h2, h3, h4, keyId, from, to, contentType, r);
    r
  }

  lemma ProtocolHeadersSteps(o: Options, headers: Headers, cleared: Headers, h1: Headers, h2: Headers, h3: Headers,
                             h4: Headers, keyId: string, from: string, to: string, contentType: string, r: Headers)
    requires cleared == headers - ProtocolNames(o)
    requires h1 == Add(cleared, o.encryptedFlagHeader, "1")
    requires h2 == Add(h1, o.keyIdHeader, keyId)
    requires h3 == Add(h2, o.fromSolutionHeader, from)
    requires h4 == Add(h3, o.toSolutionHeader, to)
    requires r == Add(h4, o.originalContentTypeHeader, contentType)
    ensures RewritesProtocolHeaders(o, headers, keyId, from, to, contentType, r)
  {
    forall n | n in headers && n !in ProtocolNames(o)
      ensures r[n] == headers[n]
    {
      assert r[n] == h4[n] == h3[n] == h2[n] == h1[n] == cleared[n];
    }
    DistinctHeaderNamesPairwise(o);
    if DistinctHeaderNames(o) {
      assert o.originalContentTypeHeader !in h4;
      assert o.toSolutionHeader !in h3;
      assert o.fromSolutionHeader !in h2;
      assert o.keyIdHeader !in h1;
      assert o.encryptedFlagHeader !in cleared;
    }
  }

  lemma RemovedAll(o: Options, headers: Headers, cleared: Headers)
    requires cleared ==
      Remove(Remove(Remove(Remove(Remove(headers,
        o.encryptedFlagHeader), o.keyIdHeader), o.fromSolutionHeader), o.toSolutionHeader), o.originalContentTypeHeader)
    ensures cleared == headers - ProtocolNames(o)
  {
  }

  /** The body the handler encrypts: the whole content, or nothing. */
  function Plaintext(req: Request): Bytes
  {
    if req.content.Some? then req.content.value.body else []
  }

  function OriginalContentType(req: Request): string
  {
    if req.content.Some? then req.content.value.contentType.GetOr(OctetStream) else OctetStream
  }

  /** The outbound half of `SendAsync`: an unknown key id fails before
      anything is read; otherwise the whole content is sealed under
      `OutboundAad`, the protocol headers are rewritten and the content
      becomes the packed payload under octet-stream. */
  function Rewrite(e: Aead, o: Options, h: Handler, req: Request, nonce: Bytes): (r: Result<Request, ClientError>)
    ensures h.keyId !in o.keys ==> r == Failure(UnknownKeyId(h.keyId))
    ensures h.keyId in o.keys ==>
              var sealed := e.seal(Plaintext(req), OutboundAad(o, h), o.keys[h.keyId], nonce, o.tagLength);
              && (r.Success? <==> sealed.Success?)
              && (r.Failure? ==> r.error == SealFailed(sealed.error))
              && (r.Success? ==>
                    && r.value.content == Some(Content(Pack(sealed.value), Some(OctetStream), Some(|Pack(sealed.value)|)))
                    && r.value.headers
                       == ProtocolHeaders(o, req.headers, h.keyId, o.thisSolutionId, h.target, OriginalContentType(req)))
  {
    if h.keyId !in o.keys then Failure(UnknownKeyId(h.keyId))
    else
      match e.seal(Plaintext(req), OutboundAad(o, h), o.keys[h.keyId], nonce, o.tagLength)
      case Failure(c) => Failure(SealFailed(c))
      case Success(p) =>
        var packed := Pack(p);
        var headers := ProtocolHeaders(o, req.headers, h.keyId, o.thisSolutionId, h.target, OriginalContentType(req));
        Success(Request(headers, Some(Content(packed, Some(OctetStream), Some(|packed|)))))
  }

  /** An HTTP token character (section 3.2.6 of RFC 7230). */
  predicate IsTokenChar(c: char)
  {
    || 'a' <= c <= 'z' || 'A' <= c <= 'Z' || '0' <= c <= '9'
    || c in "!#$%&'*+-.^_`|~"
  }

  predicate IsToken(s: string)
  {
    |s| > 0 && forall i :: 0 <= i < |s| ==> IsTokenChar(s[i])
  }

  /** What the one-argument `MediaTypeHeaderValue` constructor accepts: a
      bare `type/subtype`, two tokens around one '/', with no white space and
      no parameters. Anything else, the empty string included, throws. */
  predicate IsBareMediaType(s: string)
  {
    exists i :: 0 < i < |s| && s[i] == '/' && IsToken(s[..i]) && IsToken(s[i + 1..])
  }

  /** "text/plain" and the octet-stream fallback are accepted. */
  lemma PlainMediaTypesAccepted()
    ensures IsBareMediaType("text/plain")
    ensures IsBareMediaType(OctetStream)
  {
    assert "text/plain"[4] == '/';
    assert IsToken("text/plain"[..4]) && IsToken("text/plain"[5..]);
    assert OctetStream[11] == '/';
    assert IsToken(OctetStream[..11]) && IsToken(OctetStream[12..]);
  }

  /** A character that is neither a token character nor the '/' rules a
      string out as a bare media type. */
  lemma NonTokenCharRefused(s: string, k: int)
    requires 0 <= k < |s| && !IsTokenChar(s[k]) && s[k] != '/'
    ensures !IsBareMediaType(s)
  {
    forall i | 0 < i < |s| && s[i] == '/'
      ensures !(IsToken(s[..i]) && IsToken(s[i + 1..]))
    {
      if i < k {
        assert s[i + 1..][k - i - 1] == s[k];
      } else {
        assert s[..i][k] == s[k];
      }
    }
  }

  /** The type ASP.NET writes for JSON results carries a charset parameter,
      which the constructor refuses; so it does the empty string. */
  lemma ParameterisedMediaTypeRefused()
    ensures !IsBareMediaType("application/json; charset=utf-8")
    ensures !IsBareMediaType("")
  {
    var json := "application/json; charset=utf-8";
    assert json[16] == ';' && !IsTokenChar(';');
    NonTokenCharRefused(json, 16);
  }

  /** The inbound half of `SendAsync`. A response without the flag header
      (whatever its value) comes back untouched. A flagged one needs a known
      key id, taken from the first value of its header; its body is split,
      opened under `InboundAad`, and replaces the content with the restored
      content type, which must be a bare media type; the flag and
      original-content-type headers go away. Each failure is tied to the
      step that raises it. */
  function Unwrap(e: Aead, o: Options, h: Handler, resp: Response): (r: Result<Response, ClientError>)
    ensures o.encryptedFlagHeader !in resp.headers ==> r == Success(resp)
    ensures o.encryptedFlagHeader in resp.headers && o.keyIdHeader !in resp.headers ==>
              r == Failure(MissingResponseKeyId)
    ensures o.encryptedFlagHeader in resp.headers && First(resp.headers, o.keyIdHeader).Value? &&
            First(resp.headers, o.keyIdHeader).value !in o.keys ==>
              r == Failure(UnknownResponseKeyId(First(resp.headers, o.keyIdHeader).value))
    ensures o.encryptedFlagHeader in resp.headers && r.Success? ==>
              First(resp.headers, o.keyIdHeader).Value? &&
              var keyId := First(resp.headers, o.keyIdHeader).value;
              var unpacked := Unpack(resp.content.body, o.nonceLength, o.tagLength);
              && keyId in o.keys
              && unpacked.Success?
              && e.open(unpacked.value, InboundAad(o, h, keyId), o.keys[keyId]) == Success(r.value.content.body)
              && r.value.content.contentLength == Some(|r.value.content.body|)
              && r.value.content.contentType ==
                 Some(if First(resp.headers, o.originalContentTypeHeader).Value?
                      then First(resp.headers, o.originalContentTypeHeader).value else OctetStream)
              && r.value.headers == resp.headers - {o.encryptedFlagHeader, o.originalContentTypeHeader}
              && r.value.status == resp.status
    ensures o.encryptedFlagHeader in resp.headers && First(resp.headers, o.keyIdHeader).NoValues? ==>
              r == Failure(EmptyHeaderValues)
    ensures o.encryptedFlagHeader in resp.headers && First(resp.headers, o.keyIdHeader).Value? &&
            First(resp.headers, o.keyIdHeader).value in o.keys ==>
              var keyId := First(resp.headers, o.keyIdHeader).value;
              var unpacked := Unpack(resp.content.body, o.nonceLength, o.tagLength);
              && (unpacked.Failure? ==> r == Failure(Malformed(unpacked.error)))
              && (unpacked.Success? ==>
                    var decrypted := e.open(unpacked.value, InboundAad(o, h, keyId), o.keys[keyId]);
                    var original := First(resp.headers, o.originalContentTypeHeader);
                    var contentType := if original.Value? then original.value else OctetStream;
                    && (decrypted.Failure? ==> r == Failure(NotAuthentic(decrypted.error)))
                    && (decrypted.Success? && original.NoValues? ==> r == Failure(EmptyHeaderValues))
                    && (decrypted.Success? && !original.NoValues? && !IsBareMediaType(contentType) ==>
                          r == Failure(InvalidMediaType(contentType)))
                    && (decrypted.Success? && !original.NoValues? && IsBareMediaType(contentType) ==>
                          r.Success? && r.value.content == Content(decrypted.value, Some(contentType), Some(|decrypted.value|))))
  {
    if o.encryptedFlagHeader !in resp.headers then Success(resp)
    else
      match First(resp.headers, o.keyIdHeader)
      case Absent => Failure(MissingResponseKeyId)
      case NoValues => Failure(EmptyHeaderValues)
      case Value(keyId) =>
        if keyId !in o.keys then Failure(UnknownResponseKeyId(keyId))
        else
          match Unpack(resp.content.body, o.nonceLength, o.tagLength)
          case Failure(c) => Failure(Malformed(c))
          case Success(p) =>
            match e.open(p, InboundAad(o, h, keyId), o.keys[keyId])
            case Failure(c) => Failure(NotAuthentic(c))
            case Success(plaintext) =>
              var original := First(resp.headers, o.originalContentTypeHeader);
              if original.NoValues? then Failure(EmptyHeaderValues)
              else
                var contentType := if original.Value? then original.value else OctetStream;
                if !IsBareMediaType(contentType) then Failure(InvalidMediaType(contentType))
                else Success(resp.(
                  content := Content(plaintext, Some(contentType), Some(|plaintext|)),
                  headers := Remove(Remove(resp.headers, o.encryptedFlagHeader), o.originalContentTypeHeader)))
  }

  /** `SendAsync`: rewrite (its errors escape before anything is sent), hand
      the request to the transport, then unwrap. A cancellation becomes a
      timeout error only when the handler's own timeout fired. */
  function Send(e: Aead, o: Options, h: Handler, req: Request, nonce: Bytes, transport: Transport)
    : (r: Result<Response, ClientError>)
    ensures h.keyId !in o.keys ==> r == Failure(UnknownKeyId(h.keyId))
    ensures Rewrite(e, o, h, req, nonce).Failure? ==> r == Failure(Rewrite(e, o, h, req, nonce).error)
    ensures Rewrite(e, o, h, req, nonce).Success? ==>
              && (transport.Aborted? && transport.timeoutFired ==> r == Failure(TimedOut(o.requestTimeout)))
              && (transport.Aborted? && !transport.timeoutFired ==> r == Failure(CancelledByCaller))
              && (transport.Broken? ==> r == Failure(TransportFailed))
              && (transport.Delivered? ==> r == Unwrap(e, o, h, transport.response))
  {
    var _ :- Rewrite(e, o, h, req, nonce);
    match transport
    case Broken => Failure(TransportFailed)
    case Aborted(fired) => if fired then Failure(TimedOut(o.requestTimeout)) else Failure(CancelledByCaller)
    case Delivered(resp) => Unwrap(e, o, h, resp)
  }

  /** The handler tests the flag header for presence only: whatever value it
      carries, the response is unwrapped the same way. */
  lemma FlagValueIsIgnored(e: Aead, o: Options, h: Handler, resp: Response, v: seq<string>, w: seq<string>)
    requires DistinctHeaderNames(o)
    ensures Unwrap(e, o, h, resp.(headers := resp.headers[o.encryptedFlagHeader := v]))
         == Unwrap(e, o, h, resp.(headers := resp.headers[o.encryptedFlagHeader := w]))
  {
    DistinctHeaderNamesPairwise(o);
    var a := resp.(headers := resp.headers[o.encryptedFlagHeader := v]);
    var b := resp.(headers := resp.headers[o.encryptedFlagHeader := w]);
    assert First(a.headers, o.keyIdHeader) == First(b.headers, o.keyIdHeader);
    assert First(a.headers, o.originalContentTypeHeader) == First(b.headers, o.originalContentTypeHeader);
    assert Remove(Remove(a.headers, o.encryptedFlagHeader), o.originalContentTypeHeader)
        == Remove(Remove(b.headers, o.encryptedFlagHeader), o.originalContentTypeHeader);
  }
}

=== FILE: headers.dfy ===
/** HTTP header collections as both protocol roles see them: a header name
    maps to the ordered list of its values (ASP.NET's `StringValues`,
    HttpClient's `HttpHeaders`). Header names are compared exactly. */
module Headers {
  import opened Wrappers

  type Headers = map<string, seq<string>>

  /** The values `StringValues` keeps when it joins them: the empty ones
      are skipped. */
  function NonEmpty(vs: seq<string>): (r: seq<string>)
    ensures |r| <= |vs|
    ensures forall i :: 0 <= i < |r| ==> r[i] != ""
    ensures forall v :: v in r <==> v in vs && v != ""
  {
    if |vs| == 0 then []
    else if vs[0] == "" then NonEmpty(vs[1..])
    else [vs[0]] + NonEmpty(vs[1..])
  }

  /** The values separated by commas. */
  function CommaSeparated(vs: seq<string>): string
  {
    if |vs| == 0 then ""
    else if |vs| == 1 then vs[0]
    else vs[0] + "," + CommaSeparated(vs[1..])
  }

  /** `StringValues.ToString()`: the non-empty values joined by commas, ""
      when there are none. */
  function Joined(vs: seq<string>): string
  {
    CommaSeparated(NonEmpty(vs))
  }

  /** Two or more non-empty values joined carry a comma right after the
      first one, so the joined text equals a comma-free string only when
      exactly that one non-empty value is present, or none is and the
      string is empty. */
  lemma {:induction false} JoinedSingle(vs: seq<string>, v: string)
    requires forall i :: 0 <= i < |v| ==> v[i] != ','
    ensures Joined(vs) == v <==> NonEmpty(vs) == [v] || (NonEmpty(vs) == [] && v == "")
  {
    var ws := NonEmpty(vs);
    if |ws| >= 2 {
      var j := CommaSeparated(ws);
      assert ws[0] != "";
      assert j[|ws[0]|] == ',';
    }
  }

  /** The server's `TryGetValue(name, out v) ? v.ToString() : ...`. */
  function Lookup(h: Headers, name: string): (r: Option<string>)
    ensures r.Some? <==> name in h
    ensures r.Some? && |h[name]| == 1 ==> r.value == h[name][0]
    ensures r.Some? && NonEmpty(h[name]) == [] ==> r.value == ""
  {
    if name in h then Some(Joined(h[name])) else None
  }

  /** `headers[name] = value`: the header holds exactly `value` afterwards
      and every other header is untouched. */
  function Set(h: Headers, name: string, value: string): (r: Headers)
    ensures r.Keys == h.Keys + {name}
    ensures r[name] == [value]
    ensures forall n :: n in h && n != name ==> r[n] == h[n]
  {
    h[name := [value]]
  }

  /** `HttpHeaders.Remove(name)`. */
  function Remove(h: Headers, name: string): (r: Headers)
    ensures r.Keys == h.Keys - {name}
    ensures forall n :: n in r ==> r[n] == h[n]
  {
    h - {name}
  }

  /** `HttpHeaders.Add(name, value)`: appends `value` to the header's values. */
  function Add(h: Headers, name: string, value: string): (r: Headers)
    ensures r.Keys == h.Keys + {name}
    ensures r[name] == (if name in h then h[name] else []) + [value]
    ensures forall n :: n in h && n != name ==> r[n] == h[n]
  {
    if name in h then h[name := h[name] + [value]] else h[name := [value]]
  }

  /** Changes made to a header collection by code this model does not see:
      each named header is removed (`None`) or replaced by the given values. */
  type HeaderEdits = map<string, Option<seq<string>>>

  /** The collection after `edits`; headers not named keep their values. */
  function Edit(h: Headers, edits: HeaderEdits): (r: Headers)
    ensures forall n :: n in edits ==> (n in r <==> edits[n].Some?)
    ensures forall n :: n in edits && n in r ==> r[n] == edits[n].value
    ensures forall n :: n !in edits ==> (n in r <==> n in h)
    ensures forall n :: n !in edits && n in r ==> r[n] == h[n]
  {
    map n | n in h.Keys + edits.Keys && (n in edits ==> edits[n].Some?) ::
      if n in edits then edits[n].value else h[n]
  }

  /** Every read the server makes of a header the edits do not name gives
      the same answer afterwards. */
  lemma LookupSurvivesEdit(h: Headers, edits: HeaderEdits, name: string)
    requires name !in edits
    ensures Lookup(Edit(h, edits), name) == Lookup(h, name)
  {
  }

  datatype FirstValue = Absent | NoValues | Value(value: string)

  /** The client's `TryGetValues(name, out vs)` followed by `First(vs)`;
      `NoValues` is the case in which `First` throws. */
  function First(h: Headers, name: string): (r: FirstValue)
    ensures r.Absent? <==> name !in h
    ensures r.Value? <==> name in h && |h[name]| > 0
    ensures r.Value? ==> r.value == h[name][0]
  {
    if name !in h then Absent
    else if |h[name]| == 0 then NoValues
    else Value(h[name][0])
  }
}

=== FILE: multidb_options.dfy ===
/** The database configuration section (`MultiDbOptions`, `DatabaseConfig`). */
module MultiDbConfig {

  /** The configuration section the options bind from. */
  const SectionName: string := "MultiDb"

  datatype DatabaseConfig = DatabaseConfig(
    name: string,
    /** e.g. "SqlServer", "PostgreSql", "MySql", "Sqlite" */
    provider: string,
    connectionString: string,
    /** Whether to open a warm connection on startup. */
    warmupOnStart: bool)

  datatype MultiDbOptions = MultiDbOptions(databases: seq<DatabaseConfig>)

  function DefaultDatabaseConfig(): DatabaseConfig
  {
    DatabaseConfig("", "", "", true)
  }

  function DefaultOptions(): MultiDbOptions
  {
    MultiDbOptions([])
  }

  /** Defaults: section "MultiDb", no databases, empty name, provider and
      connection string, warm-up on. */
  lemma DefaultsAreEmpty()
    ensures SectionName == "MultiDb"
    ensures DefaultOptions().databases == []
    ensures DefaultDatabaseConfig().name == "" && DefaultDatabaseConfig().provider == ""
    ensures DefaultDatabaseConfig().connectionString == ""
    ensures DefaultDatabaseConfig().warmupOnStart
  {
  }
}

=== FILE: payload.dfy ===
/** The wire payload codec: an AEAD result travels as the single buffer
    `nonce || cipher || tag`. The buffer does not describe its own layout;
    both ends split it with the nonce and tag lengths they are configured
    with. */
module Payload {
  import opened Wrappers
  import opened Text

  datatype EncryptedPayload = EncryptedPayload(nonce: Bytes, cipher: Bytes, tag: Bytes)

  datatype CodecError =
    /** The buffer cannot hold a nonce and a tag of the requested lengths. */
    | TooShort(length: nat, nonceLength: int, tagLength: int)
    /** A negative nonce or tag length made one of the slices invalid. */
    | SliceOutOfRange

  /** `ToPackedBytes`: nonce at offset 0, cipher right after it, tag last. */
  function Pack(p: EncryptedPayload): (b: Bytes)
    ensures |b| == |p.nonce| + |p.cipher| + |p.tag|
    ensures b[..|p.nonce|] == p.nonce
    ensures b[|p.nonce|..|p.nonce| + |p.cipher|] == p.cipher
    ensures b[|p.nonce| + |p.cipher|..] == p.tag
  {
    p.nonce + p.cipher + p.tag
  }

  /** `FromPackedBytes`: split `packed` by position. The length check comes
      first; a buffer that passes it with a negative length still fails when
      it is sliced. On success the three parts have the requested lengths
      and packing them again gives back `packed`. */
  function Unpack(packed: Bytes, nonceLength: int, tagLength: int): (r: Result<EncryptedPayload, CodecError>)
    ensures |packed| < nonceLength + tagLength ==> r == Failure(TooShort(|packed|, nonceLength, tagLength))
    ensures r.Success? <==> nonceLength >= 0 && tagLength >= 0 && |packed| >= nonceLength + tagLength
    ensures r.Success? ==>
              && |r.value.nonce| == nonceLength
              && |r.value.tag| == tagLength
              && |r.value.cipher| == |packed| - nonceLength - tagLength
              && Pack(r.value) == packed
  {
    if |packed| < nonceLength + tagLength then
      Failure(TooShort(|packed|, nonceLength, tagLength))
    else if nonceLength < 0 || tagLength < 0 then
      Failure(SliceOutOfRange)
    else
      var cipherLength := |packed| - nonceLength - tagLength;
      var nonce := packed[..nonceLength];
      var cipher := packed[nonceLength..nonceLength + cipherLength];
      var tag := packed[nonceLength + cipherLength..nonceLength + cipherLength + tagLength];
      assert nonce + cipher + tag == packed;
      Success(EncryptedPayload(nonce, cipher, tag))
  }

  /** Splitting a packed payload with its own nonce and tag lengths gives
      the payload back, field by field. */
  lemma RoundTrip(p: EncryptedPayload)
    ensures Unpack(Pack(p), |p.nonce|, |p.tag|) == Success(p)
  {
    var b := Pack(p);
    var q := Unpack(b, |p.nonce|, |p.tag|).value;
    assert q.nonce == b[..|p.nonce|];
    assert q.cipher == b[|p.nonce|..|p.nonce| + |p.cipher|];
    assert q.tag == b[|p.nonce| + |p.cipher|..];
  }

  /** A buffer of exactly `nonceLength + tagLength` bytes carries an empty
      ciphertext. */
  lemma ExactLengthIsEmptyCipher(packed: Bytes, nonceLength: nat, tagLength: nat)
    requires |packed| == nonceLength + tagLength
    ensures Unpack(packed, nonceLength, tagLength).Success?
    ensures Unpack(packed, nonceLength, tagLength).value.cipher == []
  {
  }
}

=== FILE: secure_options.dfy ===
/** The encrypted-transport configuration (`SecureCommunicationOptions`):
    one immutable value per process, shared by the client handler and the
    server middleware. */
module SecureOptions {
  import opened Text

  /** A `TimeSpan`, in ticks of 100 nanoseconds. */
  datatype Duration = Duration(ticks: int)

  const TicksPerSecond: int := 10_000_000

  function FromSeconds(seconds: int): (d: Duration)
    ensures d.ticks == seconds * TicksPerSecond
  {
    Duration(seconds * TicksPerSecond)
  }

  datatype Options = Options(
    /** Key id to raw key bytes; key ids are compared ordinally, with case. */
    keys: map<string, Bytes>,
    defaultKeyId: string,
    thisSolutionId: string,
    encryptedFlagHeader: string,
    keyIdHeader: string,
    fromSolutionHeader: string,
    toSolutionHeader: string,
    originalContentTypeHeader: string,
    mirrorEncryptResponse: bool,
    nonceLength: int,
    tagLength: int,
    requestTimeout: Duration)

  /** The five protocol header names of `o`, in the order the client writes
      them. */
  function HeaderNames(o: Options): seq<string>
  {
    [o.encryptedFlagHeader, o.keyIdHeader, o.fromSolutionHeader, o.toSolutionHeader, o.originalContentTypeHeader]
  }

  /** No two protocol headers share a name. */
  predicate DistinctHeaderNames(o: Options)
  {
    var names := HeaderNames(o);
    forall i, j :: 0 <= i < j < |names| ==> names[i] != names[j]
  }

  lemma DistinctHeaderNamesPairwise(o: Options)
    ensures DistinctHeaderNames(o) ==>
              && o.encryptedFlagHeader != o.keyIdHeader && o.encryptedFlagHeader != o.fromSolutionHeader
              && o.encryptedFlagHeader != o.toSolutionHeader && o.encryptedFlagHeader != o.originalContentTypeHeader
              && o.keyIdHeader != o.fromSolutionHeader && o.keyIdHeader != o.toSolutionHeader
              && o.keyIdHeader != o.originalContentTypeHeader && o.fromSolutionHeader != o.toSolutionHeader
              && o.fromSolutionHeader != o.originalContentTypeHeader && o.toSolutionHeader != o.originalContentTypeHeader
  {
    if DistinctHeaderNames(o) {
      var names := HeaderNames(o);
      assert names[0] != names[1] && names[0] != names[2] && names[0] != names[3] && names[0] != names[4];
      assert names[1] != names[2] && names[1] != names[3] && names[1] != names[4];
      assert names[2] != names[3] && names[2] != names[4] && names[3] != names[4];
    }
  }

  /** A freshly constructed options object. */
  function Default(): Options
  {
    Options(
      keys := map[],
      defaultKeyId := "default",
      thisSolutionId := "unknown",
      encryptedFlagHeader := "X-Encrypted",
      keyIdHeader := "X-Key-Id",
      fromSolutionHeader := "X-Solution-From",
      toSolutionHeader := "X-Solution-To",
      originalContentTypeHeader := "X-Original-Content-Type",
      mirrorEncryptResponse := true,
      nonceLength := 12,
      tagLength := 16,
      requestTimeout := FromSeconds(30))
  }

  /** The defaults: no keys, key id "default", solution "unknown", the
      X-Encrypted / X-Key-Id / X-Solution-From / X-Solution-To /
      X-Original-Content-Type header names (all distinct), mirroring on,
      a 12-byte nonce and 16-byte tag, and a 30-second timeout. */
  lemma DefaultsAreTheProtocolConstants()
    ensures Default().keys == map[]
    ensures Default().defaultKeyId == "default" && Default().thisSolutionId == "unknown"
    ensures HeaderNames(Default()) ==
              ["X-Encrypted", "X-Key-Id", "X-Solution-From", "X-Solution-To", "X-Original-Content-Type"]
    ensures DistinctHeaderNames(Default())
    ensures Default().mirrorEncryptResponse
    ensures Default().nonceLength == 12 && Default().tagLength == 16
    ensures Default().requestTimeout.ticks == 30 * TicksPerSecond
  {
  }
}

=== FILE: text.dfy ===
/** Character and string helpers shared by both subsystems: byte strings,
    ASCII text, .NET white space, trimming and ordinal case folding. */
module Text {

  type Bytes = seq<bv8>

  /** The media type both protocol roles fall back to. */
  const OctetStream: string := "application/octet-stream"

  predicate IsAscii(s: string) {
    forall i :: 0 <= i < |s| ==> s[i] < 128 as char
  }

  /** UTF-8 encoding of ASCII text: one byte per character. */
  function AsciiBytes(s: string): Bytes
    requires IsAscii(s)
  {
    seq(|s|, i requires 0 <= i < |s| => s[i] as int as bv8)
  }

  /** `char.IsWhiteSpace`: the Unicode White_Space characters of the BMP. */
  predicate IsWhiteSpace(c: char) {
    || c == ' '
    || '\t' <= c <= '\r'
    || c == '\U{85}'
    || c == '\U{A0}'
    || c == '\U{1680}'
    || '\U{2000}' <= c <= '\U{200A}'
    || c == '\U{2028}'
    || c == '\U{2029}'
    || c == '\U{202F}'
    || c == '\U{205F}'
    || c == '\U{3000}'
  }

  /** `string.IsNullOrWhiteSpace` for a non-null string; a null string is
      modelled as the empty one, which is blank as well. */
  predicate IsBlank(s: string) {
    forall i :: 0 <= i < |s| ==> IsWhiteSpace(s[i])
  }

  function TrimStart(s: string): (r: string)
    ensures |r| <= |s| && r == s[|s| - |r|..]
    ensures forall i :: 0 <= i < |s| - |r| ==> IsWhiteSpace(s[i])
    ensures r == [] || !IsWhiteSpace(r[0])
  {
    if |s| > 0 && IsWhiteSpace(s[0]) then TrimStart(s[1..]) else s
  }

  function TrimEnd(s: string): (r: string)
    ensures |r| <= |s| && r == s[..|r|]
    ensures forall i :: |r| <= i < |s| ==> IsWhiteSpace(s[i])
    ensures r == [] || !IsWhiteSpace(r[|r| - 1])
  {
    if |s| > 0 && IsWhiteSpace(s[|s| - 1]) then TrimEnd(s[..|s| - 1]) else s
  }

  /** `t` is the part of `s` from position `a` on, with only white space
      before it and after it. */
  predicate IsTrimOf(s: string, t: string, a: int)
  {
    && 0 <= a <= a + |t| <= |s|
    && t == s[a..a + |t|]
    && (forall i :: 0 <= i < a ==> IsWhiteSpace(s[i]))
    && (forall i :: a + |t| <= i < |s| ==> IsWhiteSpace(s[i]))
  }

  /** `string.Trim()`: the infix of `s` left after removing the white space
      at both ends; it neither starts nor ends with white space, and it is
      empty exactly when `s` is blank. */
  function Trim(s: string): (r: string)
    ensures exists a :: IsTrimOf(s, r, a)
    ensures r == [] || (!IsWhiteSpace(r[0]) && !IsWhiteSpace(r[|r| - 1]))
    ensures r == [] <==> IsBlank(s)
  {
    var front := TrimStart(s);
    var r := TrimEnd(front);
    TrimBlank(s, front, r);
    r
  }

  lemma TrimBlank(s: string, front: string, r: string)
    requires front == TrimStart(s) && r == TrimEnd(front)
    ensures IsTrimOf(s, r, |s| - |front|)
    ensures r == [] <==> IsBlank(s)
  {
    TrimInfix(s, front, r);
    if r == [] {
      assert front == [];
    } else {
      assert s[|s| - |front|] == r[0];
    }
  }

  /** Cutting white space off the front and then off the back leaves an
      infix with only white space around it. */
  lemma TrimInfix(s: string, front: string, r: string)
    requires |front| <= |s| && front == s[|s| - |front|..]
    requires forall i :: 0 <= i < |s| - |front| ==> IsWhiteSpace(s[i])
    requires |r| <= |front| && r == front[..|r|]
    requires forall i :: |r| <= i < |front| ==> IsWhiteSpace(front[i])
    ensures IsTrimOf(s, r, |s| - |front|)
  {
    var a := |s| - |front|;
    assert r == s[a..a + |r|];
    forall i | a + |r| <= i < |s|
      ensures IsWhiteSpace(s[i])
    {
      assert s[i] == front[i - a];
    }
  }

  /** Only one infix fits: any part of `s` with only white space around it
      and no white space at its ends is `Trim(s)`. */
  lemma TrimIsUnique(s: string, t: string, a: int)
    requires IsTrimOf(s, t, a)
    requires t == [] || (!IsWhiteSpace(t[0]) && !IsWhiteSpace(t[|t| - 1]))
    ensures t == Trim(s)
  {
    var r := Trim(s);
    var b :| IsTrimOf(s, r, b);
    if t == [] {
      assert IsBlank(s) by {
        forall i | 0 <= i < |s|
          ensures IsWhiteSpace(s[i])
        {
          if i >= a { assert a + |t| <= i; }
        }
      }
    } else {
      assert s[a] == t[0] && s[a + |t| - 1] == t[|t| - 1];
      assert !IsBlank(s);
      assert s[b] == r[0] && s[b + |r| - 1] == r[|r| - 1];
      assert a == b;
      assert |t| == |r|;
    }
  }

  /** Upper-case mapping used by `StringComparer.OrdinalIgnoreCase`,
      restricted to ASCII letters. */
  function FoldChar(c: char): char {
    if 'a' <= c <= 'z' then (c as int - 32) as char else c
  }

  function FoldCase(s: string): (r: string)
    ensures |r| == |s|
  {
    seq(|s|, i requires 0 <= i < |s| => FoldChar(s[i]))
  }

  /** Ordinal comparison ignoring (ASCII) case. */
  predicate EqualsIgnoreCase(a: string, b: string) {
    FoldCase(a) == FoldCase(b)
  }
}

=== FILE: wrappers.dfy ===
/** Failure-compatible Option and Result values standing in for the source's
    nullable references and thrown exceptions. */
module Wrappers {

  datatype Option<+T> = None | Some(value: T) {

    /** The wrapped value, or `default` when there is none (C#'s `??`). */
    function GetOr(default: T): T {
      if Some? then value else default
    }
  }

  datatype Result<+T, +E> = Success(value: T) | Failure(error: E) {

    predicate IsFailure() {
      Failure?
    }

    function PropagateFailure<U>(): Result<U, E>
      requires Failure?
    {
      Failure(error)
    }

    function Extract(): T
      requires Success?
    {
      value
    }
  }
}
